=== FILE: README.md ===
# Key custody for a shared lab key, in Dafny

This project models the core of `matik-registration`, a small system that
tracks who holds one shared physical key. The key's custody is an
append-only log of `take` and `return` events. The server's handlers read
the latest event to decide whether a request is legal.

Signed-in users take and return the key over HTTP. An admin can reset a
stuck key. An ESP32 board with an RFID reader posts scans to a raw logging
endpoint. Admins manage the user directory: they assign rfid tags, approve
signup requests and remove users.

Each handler is a pure function from a database state and a request to a
reply and the next state:

- `KeyStore` (store.dfy): the four collections as one `Db` value, and the log invariants:
  - `Alternates`: takes at even positions, returns at odd ones;
  - `Chronological`: timestamps never decrease;
  - the rfid and phone uniqueness of the directory.
- `Http` (http.dfy): the bearer-token preamble every signed-in handler shares.
- `Custody` (custody.dfy): take, return, admin reset and the raw log endpoint.
- `CustodyRuns` (custody_runs.dfy) and `Server` (server.dfy): sequences of requests, and the invariants they keep.
- `KeyStatus` (status.dfy): the two status endpoints, and a reference definition of custody that replays the whole log.
- `Directory` (directory.dfy) and `Auth` (auth.dfy): rfid assignment, the admin user list and management, registration, signup and verify.
- `JsText` (text.dfy): JavaScript's `trim` and `split('@')[0]`.
- `Device` and `DeviceProtocol` (device.dfy, device_protocol.dfy): the firmware's `processRFIDCard`, on its own and against the log endpoint.
- `Reader` (reader.dfy): the firmware's `checkRFID`, which writes a card UID as hex.

A few modelling choices:

- JavaScript truthiness of optional strings is `KeyStore.Present`: both `undefined` and `""` are falsy.
- The latest event found by `sort({ timestamp: -1 })` is the last element of the log. `KeyStore.LastIsNewest` and `Server.RunKeepsChronological` show that the last element has the greatest timestamp, as long as the clock never runs backwards. Events with equal timestamps are ordered by insertion here; the database does not promise that order (see "## Left out").
- The `eventId` a handler returns is the new event's position in the log.
- `users.findOne({ rfid })` is `KeyStore.HolderOf`. It picks some user holding the tag, because the database does not promise an order. Where a name is reported, the lemmas show that with unique rfids that user is the only possible one.

Where the code and the system's documented behaviour differ, the model
follows the code:

- **Reset with a known holder.** `admin/reset-key` asks for `forceReturn` only when the key is out under a tag that no user holds (an orphaned tag). When a user holds the tag, it resets at once. The documented behaviour is the opposite: a known holder needs confirmation, an orphaned tag does not.
- **Return by a non-holder.** `return-key` refuses it with 403. A conflict code (409) was documented.
- **Unknown tags.** No handler has an "unknown tag" refusal. A take by an admin without a tag is logged under the synthetic tag `admin-<email>`.
- **Device events.** `log-key-event` appends any `take` or `return` without authentication and without checking the current status. The device variant was documented as authenticated and subject to the same legality rules. `Custody.LogKeyEventCanBreakAlternation` and `DeviceProtocol.StaleScanBreaksAlternation` state the consequence. The endpoint also answers a refused or failed event with status 200, which the device reads as success (`DeviceProtocol.RefusedPostStillFlipsBelief`).
- **Returns by admins.** `return-key` requires a user record with an rfid even for admins, so an admin without a tag cannot return the key there.

## Model

| member | source | states |
|---|---|---|
| Http.PreambleError | nuxt/server/api/take-key.ts:14-31 | Each preamble failure is an error: 401 exactly for a missing bearer prefix, 500 exactly for an undecodable token (the handler's catch-all), 400 exactly for a token without an email. |
| Http.Identify | nuxt/server/api/take-key.ts:11-31 | The preamble yields a caller exactly when the header starts with `Bearer ` and the token decodes to an object with a truthy email, and that caller is that email. A missing prefix, an undecodable token and a missing email are each told apart. |
| KeyStore.LastIsNewest | nuxt/server/api/take-key.ts:62-64 | In a chronological log no event is newer than the last one, so the last element carries the greatest timestamp the sort looks for. |
| KeyStore.AppendKeepsChronological | nuxt/server/api/take-key.ts:77-82 | Appending an event stamped no earlier than the latest keeps the timestamps non-decreasing. |
| KeyStore.AppendKeepsAlternation | nuxt/server/api/take-key.ts:62-82 | Appending the kind of event that is due (a return while taken, a take otherwise) keeps the log alternating. |
| KeyStore.AppendOutOfTurnBreaksAlternation | nuxt/server/api/log-key-event.ts:11-19 | Appending the kind that is not due (a second take, or a return while available) always breaks the alternation. |
| KeyStore.TakenIffOddLength | nuxt/server/api/key-status-for-esp.ts:29-36 | In an alternating log the key is out exactly when the log's length is odd. |
| KeyStore.HolderOf | nuxt/server/api/take-key.ts:68-69 | The rfid lookup returns a user who holds the tag, and returns nobody only when no user holds it. |
| KeyStore.HolderIsUnique | nuxt/server/api/take-key.ts:68-69 | With unique rfids the lookup finds exactly the user holding the tag, and the reported name is that user's. |
| Custody.TakeKey | nuxt/server/api/take-key.ts:3-100 | A take succeeds exactly when the caller may take and the key is not out. It then appends one take under the caller's rfid, or `admin-<email>` for an admin without one, and leaves the directory alone. A refusal changes nothing and follows the code's codes: 405, 401, 403 unregistered, 400 no tag, 409 already taken. Alternation and chronology are preserved. |
| Custody.TakeConflictNamesHolder | nuxt/server/api/take-key.ts:66-75 | The 409 names the current holder, or says "Unknown" when no user holds the recorded tag. |
| Custody.ReturnKey | nuxt/server/api/return-key.ts:3-108 | A return succeeds exactly when a registered caller with an rfid is the holder or an admin and the key is out. It appends a return under the recorded take's tag, not the caller's. Refusals: 405 for a method other than POST, 400 when the caller has no rfid (admins too), 409 when the key is not out, 403 for a non-holder non-admin. The log stays alternating and chronological. |
| Custody.ReturnRefusalNamesHolder | nuxt/server/api/return-key.ts:70-83 | A non-holder's refused return names the holder, or says "Another user" when no user holds the tag. |
| Custody.ResetKey | nuxt/server/api/admin/reset-key.ts:3-116 | Only admins get a reply body to a POST (other methods get 405, non-admins 403). It reports no action when the key is available. It asks for force exactly when the tag is orphaned and force was not given, returning the tag and the take time and changing nothing. Otherwise it appends one `ADMIN-RESET` return naming the admin, the reason (with its default) and the released tag. The key is then available and the log still alternates. The reply's `success` is false exactly when the tag is orphaned and force was not given. |
| Custody.ResetNamesPreviousHolder | nuxt/server/api/admin/reset-key.ts:98-104 | A reset reports the evicted holder's name, or `Orphaned RFID: <tag>` when no user holds the tag. |
| Custody.ParseEventType | nuxt/server/api/log-key-event.ts:11 | Only the exact strings `take` and `return` are accepted event types. |
| Custody.LogKeyEvent | nuxt/server/api/log-key-event.ts:3-23 | Every reply has status 200. An event is logged exactly for a POST with a truthy rfid and a valid type, and then exactly that event is appended. Nothing changes otherwise. |
| Custody.LogKeyEventCanBreakAlternation | nuxt/server/api/log-key-event.ts:11-19 | There is an alternating log in which a logged `take` breaks the alternation: the endpoint never consults the current status. |
| CustodyRuns.RunKeepsAlternation | nuxt/server/api/take-key.ts:62-82 | Any sequence of takes, returns and resets keeps an alternating log alternating. |
| CustodyRuns.RunIsAppendOnly | nuxt/server/api/take-key.ts:77-82 | Any sequence of custody calls only extends the log (the old log is a prefix) and never touches users or admins. |
| CustodyRuns.TakesWhileTakenChangeNothing | nuxt/server/api/take-key.ts:66-75 | Once the key is out, any number of takes leaves the whole state unchanged. |
| CustodyRuns.TakeBurstAppendsAtMostOne | nuxt/server/api/take-key.ts:62-82 | Handled one at a time, any burst of takes appends at most one event. |
| CustodyRuns.TwoUserScenario | nuxt/server/api/return-key.ts:59-96 | A worked run: Ann takes, Bob's take gets a 409 naming Ann, Bob's return gets a 403 naming Ann, Ann returns, and an admin reset is then a no-op that leaves the log unchanged. |
| KeyStatus.GetKeyStatus | nuxt/server/api/key-status.ts:3-51 | 401 exactly when the header lacks the bearer prefix or the token is empty. Otherwise `taken` is the latest event's kind. The holder is reported exactly when the key is out under a non-empty tag some user holds, with that user's name and phone. The timestamp is the latest event's, absent for an empty log. |
| KeyStatus.StatusNamesTheHolder | nuxt/server/api/key-status.ts:35-39 | With unique rfids the reported holder is the user holding the recorded tag. |
| KeyStatus.StatusDependsOnlyOnLatest | nuxt/server/api/key-status.ts:29-44 | Two logs with the same latest event give the same status. |
| KeyStatus.GetKeyStatusForEsp | nuxt/server/api/key-status-for-esp.ts:3-51 | 401 exactly when the API key is missing or differs from the configured one. 403 exactly when the key is right but the device id is not `esp32-matik-registration`. Every device passing both checks gets a reply, in which `keyTaken` is the log's status, the holder tag is reported exactly when taken, and the last event is echoed. |
| KeyStatus.ReplayEndsWithLastEvent | nuxt/server/api/key-status-for-esp.ts:27-36 | Replaying a non-empty log event by event ends in the state the last event sets. |
| KeyStatus.StatusMatchesReplay | nuxt/server/api/key-status.ts:29-44 | Both endpoints agree with the reference definition that replays the whole log from "available": the web status's `taken`, and the device's holder tag. |
| JsText.Trim | nuxt/server/api/admin/rfid.ts:55 | The result is the input with whitespace-only prefix and suffix removed, with no whitespace at either end. It is empty exactly when the input is all whitespace. |
| JsText.TrimIdempotent | nuxt/server/api/admin/rfid.ts:55-61 | Trimming twice is trimming once. |
| JsText.EmailPrefix | nuxt/server/api/admin/rfid.ts:88 | The prefix is the part of the email before its first `@`, or all of it when there is none. |
| Directory.AssignRfid | nuxt/server/api/admin/rfid.ts:3-132 | An assignment succeeds exactly for an admin caller naming a user or admin, with a non-blank tag no other user holds. It then sets the trimmed tag on that user and changes no other user. An admin without a record gets one named after the email's local part with an empty phone. Refusals: 405 for a method other than POST, 400 "Email and RFID are required" for a falsy email or rfid, 400 "RFID cannot be empty" for a blank tag, 409 for a tag another user holds, 404 for an email that is neither a user nor an admin. Unique rfids and phones stay unique. |
| Directory.AssignSaysUpdated | nuxt/server/api/admin/rfid.ts:119-121 | For an existing user the reply says "updated" exactly when the user already had a tag, and "added" otherwise. |
| Directory.ListUsers | nuxt/server/api/admin/users.ts:38-81 | The listing has every user and every admin exactly once. A user is shown with their fields and flagged admin exactly when an email is in the admin set. An admin without a record is shown under the email's local part. The requests are exactly the pending ones. |
| Directory.ManageUser | nuxt/server/api/admin/users.ts:83-159 | `remove` deletes exactly a non-admin user (403 for admins, 404 when absent). `approve` and `reject` need a pending request (404 otherwise) and set its status. Approve creates a user record for a new email and leaves the users unchanged for a registered one. Any other action on a pending request gives 400 "Invalid action" and changes nothing. Directory uniqueness is preserved. |
| Directory.AdminUsers | nuxt/server/api/admin/users.ts:3-174 | 401 without a bearer header and 403 for non-admins, before the method is looked at. An admin's GET gets the listing and changes nothing. POST is `ManageUser`: its new state, its message, and its refusals with their status and message. Any other method gets 405. |
| Directory.RegisterUser | nuxt/server/api/register-user.ts:3-28 | Every reply has status 200. A user is inserted exactly for a POST with all four fields truthy whose email, rfid and phone are all unused, and the directory then grows by one. Otherwise nothing changes. Directory uniqueness is preserved. |
| Auth.Signup | nuxt/server/api/auth/signup.ts:3-74 | Any token failure, including a missing email, gives 400. Admins, registered users and repeat requests are answered without change. The state changes exactly when a non-admin, unregistered caller with no earlier request signs up, and then one pending request is added, stamped `now`, carrying the token's name and picture (empty when absent). |
| Auth.Verify | nuxt/server/api/auth/verify.ts:3-63 | Every token failure gives 401. On success `isRegistered` holds exactly for users and admins, `isAdmin` exactly for admins, and `user` is the caller's record when there is one. |
| Auth.ListingAgreesWithVerify | nuxt/server/api/admin/users.ts:58-75 | The admin list shows a signed-in identity exactly when verify reports it registered, with the same admin flag. |
| Auth.SignupThenApproveRegisters | nuxt/server/api/auth/signup.ts:58-67 | A filed signup leaves the caller unregistered and listed as pending to admins. After an admin approves it, verify reports the caller registered and not an admin. |
| Auth.VerifyAgreesWithCustodyGate | nuxt/server/api/auth/verify.ts:49-54 | The client's `isRegistered` agrees with the custody handlers' registration gate. Unregistered callers are refused by take and return with 403 "User not registered or approved", and registered callers never get that refusal. Registered callers can still get other 403s, such as a non-holder's refused return. |
| Device.ElapsedAcrossWrap | hardware/main/_rfidSender.h:116 | The unsigned 32-bit `millis() - lastRFIDTime` measures the true elapsed time even when the clock wraps in between. |
| Device.SendSucceeded | hardware/main/_rfidSender.h:94-110 | A send counts as successful exactly when the POST's result code is 200. |
| Device.CheckKeyStatus | hardware/main/_rfidSender.h:28-70 | A 200 status answer overwrites the cached belief with the server's `keyTaken`. A failed check changes nothing, and neither touches the cooldown or the initialised flag. `DeviceProtocol.StatusAnswerSyncsBelief` ties the answer to the log. |
| Device.ProcessRfidCard | hardware/main/_rfidSender.h:113-156 | During the cooldown a scan does nothing. Otherwise it restarts the cooldown and never marks the state initialised. An uninitialised device whose status check fails posts nothing. Every other scan posts exactly one event, `return` when the device believes the key is out and `take` otherwise. On success the belief flips; on failure it is resynchronised from a fresh status check. |
| DeviceProtocol.InSyncScanKeepsLogAndBelief | hardware/main/_rfidSender.h:133-155 | A device whose belief matches the log posts the kind that is due. The log endpoint appends it, the log keeps alternating, and the device's new belief matches the new log. |
| DeviceProtocol.StaleScanBreaksAlternation | hardware/main/_rfidSender.h:133-143 | A device whose belief is stale posts the kind that is not due, and the log endpoint accepts it, so the log stops alternating. |
| DeviceProtocol.RefusedPostStillFlipsBelief | hardware/main/_rfidSender.h:96-104 | The log endpoint answers a refused event with status 200, and the device counts that as success. An in-sync device posting an event the endpoint refuses (an empty UID) leaves the log unchanged but flips its belief, so the two disagree. |
| DeviceProtocol.StatusAnswerSyncsBelief | hardware/main/_rfidSender.h:124-131 | An uninitialised device chooses its first event from the device status endpoint's `keyTaken`, which is the log's status. |
| Reader.HexOf | hardware/main/_rfidReader.h:28-31 | The hex text has two characters per UID byte: the byte's high digit, then its low digit, upper case. |
| Reader.DecodeHexOfHex | hardware/main/_rfidReader.h:30 | The hex text of a UID reads back as that UID, so the encoding loses nothing. |
| Reader.Zeros | hardware/main/_rfidReader.h:26 | The cleared buffer has the buffer's size and holds only NULs. |
| Reader.LoopCount | hardware/main/_rfidReader.h:28 | The loop as written stops at the UID's end or at the first `i` with `i*2` not below the limit: every iteration run had `2i` below the limit. `Reader.LoopCountClosedForm` gives its closed form. |
| Reader.AsWrittenExtent | hardware/main/_rfidReader.h:28-31 | The loop as written touches an odd number of bytes, at most two per UID byte plus the terminator, and none when the UID is empty or the wrapped limit is 0. `Reader.AsWrittenOverrun` says exactly when this exceeds the buffer. |
| Reader.LoopCountClosedForm | hardware/main/_rfidReader.h:28 | The loop as written runs for the UID length or `(limit + 1) / 2` iterations, whichever is smaller. |
| Reader.AsWrittenOverrun | hardware/main/_rfidReader.h:28-31 | With a non-empty buffer, the loop as written writes past the buffer exactly when the buffer size is even and the UID fills it. |
| Reader.AsWrittenOverrunExample | hardware/main/_rfidReader.h:28-31 | A 4-byte UID in an 8-byte buffer makes the loop as written touch 9 bytes. |
| Reader.AsWrittenZeroSizeOverrun | hardware/main/_rfidReader.h:26-31 | With a zero-size buffer the bound wraps, and the loop as written writes the whole UID and a terminator. |
| Reader.EncodedBytes | hardware/main/_rfidReader.h:28 | The corrected bound encodes at most the UID's bytes and keeps the last terminator inside the buffer. It stops early only when one more byte would not fit. |
| Reader.CorrectionAgreesInBounds | hardware/main/_rfidReader.h:28 | Whenever the loop as written stays inside the buffer (the highest index it writes, its NUL included, is below `bufferSize`), the corrected bound encodes the same number of bytes, whatever the parity of the size. |
| Reader.CheckRfid | hardware/main/_rfidReader.h:19-37 | `checkRFID` with the loop bound corrected to `2i + 2 < bufferSize`, which is not the source's bound (see "## Findings"). With no card it reports false and leaves the buffer unchanged. Otherwise it reports true and the buffer holds the hex of as many leading UID bytes as fit with a terminator, then NULs. Wherever the source stays in bounds, this is what it writes (`Reader.CorrectionAgreesInBounds`). |
| Server.RunKeepsDirectoryUnique | nuxt/server/api/register-user.ts:18-23 | No sequence of requests to any state-changing handler lets two users share an rfid or a (non-empty) phone. |
| Server.GuardedRunKeepsAlternation | nuxt/server/api/take-key.ts:62-82 | Requests to every state-changing handler except the raw log endpoint keep the log alternating. |
| Server.RunKeepsChronological | nuxt/server/api/take-key.ts:64 | If requests are handled at non-decreasing clock readings, none earlier than the latest event, every handler keeps the log chronological. |

## Left out

- Storage: MongoDB access (`getDb`, `utils/mongo.ts`) and every 500 caused by an unreachable database. Collections are values of `KeyStore.Db`, and each handler sees one consistent snapshot.
- Concurrency: two handlers interleaving their read of the latest event and their insert is not modelled. Requests are handled one at a time, which is the discipline under which `CustodyRuns.TakeBurstAppendsAtMostOne` holds.
- Token decoding: `JSON.parse(atob(token))` is an input, `Http.Claims`, that is undecodable or holds optional fields. No signature is checked in the source either.
- Http.PreambleError: an undecodable token gives status 500 with the message "Internal server error"; in take-key, return-key and reset-key the source uses the thrown error's own message, which depends on the JavaScript runtime.
- Clocks: `new Date()` and `millis()` are parameters (`now`). `processRFIDCard` reads `millis()` twice; the model reads it once.
- Timestamps the model does not need: `createdAt`, `updatedAt`, `approvedAt`, `rejectedAt`.
- Inserted document ids: the `eventId` is the new event's position in the log.
- Directory.ManageUser: in the source, approving an email that already has a user record inserts a second record. The directory is keyed by email here, so the existing record is kept. This is why `users.findOne({ email })` is a map lookup throughout.
- Directory.AssignRfid: `rfid.trim()` on a non-string body field and a missing request body both throw into a 500, which is not modelled. Admin documents carry only an email here, so the new record's name is always the email prefix and its phone is empty.
- KeyStore.LastIsNewest: events with equal timestamps (`new Date()` has millisecond resolution, and `NotBefore` allows a tie) are ordered by insertion in the model, so the last one is taken as the latest. MongoDB's `sort({ timestamp: -1 }).limit(1)` leaves the order among ties unspecified and may return an earlier event with the same timestamp.
- KeyStore.PhonesUnique: the empty phone of an admin's user record is not counted as a number, since two such records may exist.
- KeyStatus.GetKeyStatus: the holder's `role` field is left out (no writer sets it). The 401 message for an empty token is not stated.
- KeyStatus.GetKeyStatusForEsp: the reply's ISO timestamp string is the clock reading `now`.
- Device.ProcessRfidCard: the URL, JSON payload, headers and serial logging of `checkKeyStatus`/`sendRFIDEvent` are left out. Each exchange is replaced by its answer (`ServerAnswers`). The submit endpoint is assumed to be `log-key-event`, since the firmware's configuration is not part of this model. `rfidSenderInit` is not modelled.
- Reader.CheckRfid: the method returns the new buffer contents as a fresh value, where `checkRFID` writes into the caller's buffer in place. The MFRC522 driver calls (`PICC_IsNewCardPresent`, `PICC_ReadCardSerial`, `PICC_HaltA`, `PCD_StopCrypto1`) become the `cardRead` flag and the `uid` sequence. The `byte i` counter cannot wrap because a UID has at most 10 bytes. The caller's buffer size, and so whether the overrun in the findings happens on the board, is not part of this model.
- Hardware and front end: Wi-Fi, servo, LED, `_rfid.h`, `useAuth.ts`, `nuxt.config.ts`, the sign-in plugin, `setup-admin.ts` and `test.ts`.

## Findings

| source | as written | input that shows it | evidently intended | confidence | as-written member | corrected member |
|---|---|---|---|---|---|---|
| hardware/main/_rfidReader.h:28-30 | The loop runs while `i*2 < bufferSize - 1`. Each `sprintf("%02X")` writes two digits and a NUL at `2i+2`. For an even `bufferSize` the last NUL lands at `uidBuffer[bufferSize]`, one past the end. `bufferSize` 0 wraps the bound. | A 4-byte UID with `bufferSize` 8: offsets 0 to 8 are written, 9 bytes. | Stop while `2i + 2 < bufferSize`, so the terminator always fits. | not executed | Reader.AsWrittenOverrun | Reader.CheckRfid |

=== FILE: auth.dfy ===
/**
 * Sign-in decisions: whether a signed-in identity may file a signup
 * request, and what the client learns about its registration and role.
 */
module Auth {
  import opened Optional
  import opened KeyStore
  import opened Http
  import Custody
  import Directory

  /** Every reply of the signup endpoint that gets past the token has status 200. */
  datatype SignupReply = SignupError(error: string) | SignupMessage(message: string)

  const ADMIN_SIGNUP_ERROR := "Admins do not need to request signup - you already have access"
  const ALREADY_PENDING := "Signup request already pending approval"
  const SUBMITTED := "Signup request submitted successfully. Please wait for admin approval."

  /** A signup request is filed exactly for a non-admin, unregistered identity that has filed none before. */
  predicate SignupFiles(db: Db, req: Request) {
    && req.httpMethod == Post
    && Identify(req).Caller?
    && var email := Identify(req).email;
       email !in db.admins && email !in db.users && email !in db.signupRequests
  }

  /**
   * `POST /api/auth/signup`: every failure inside the token handling,
   * including a token without an email, surfaces as 400.
   */
  function Signup(db: Db, req: Request, now: nat): (r: Outcome<SignupReply>)
    ensures r.db.keyEvents == db.keyEvents && r.db.users == db.users && r.db.admins == db.admins
    ensures req.httpMethod == Post && IsBearer(req.authorization) && !Identify(req).Caller?
      ==> r.reply == HttpError(400, "Invalid request")
    ensures req.httpMethod == Post && Identify(req).Caller? && Identify(req).email in db.admins
      ==> r == Outcome(Ok(SignupError(ADMIN_SIGNUP_ERROR)), db)
    ensures req.httpMethod == Post && Identify(req).Caller? && Identify(req).email !in db.admins && Identify(req).email in db.users
      ==> r == Outcome(Ok(SignupError("User already registered")), db)
    ensures req.httpMethod == Post && Identify(req).Caller? && Identify(req).email !in db.admins && Identify(req).email !in db.users
            && Identify(req).email in db.signupRequests
      ==> r == Outcome(Ok(SignupMessage(ALREADY_PENDING)), db)
    ensures r.db != db <==> SignupFiles(db, req)
    ensures SignupFiles(db, req) ==>
      var email := Identify(req).email;
      && r.reply == Ok(SignupMessage(SUBMITTED))
      && r.db.signupRequests.Keys == db.signupRequests.Keys + {email}
      && r.db.signupRequests[email].name == req.claims.name.GetOr("")
      && r.db.signupRequests[email].picture == req.claims.picture.GetOr("")
      && r.db.signupRequests[email].status == Pending
      && r.db.signupRequests[email].requestedAt == now
      && (forall e :: e in db.signupRequests ==> r.db.signupRequests[e] == db.signupRequests[e])
  {
    if req.httpMethod != Post then Outcome(HttpError(405, "Method not allowed"), db)
    else if !IsBearer(req.authorization) then Outcome(HttpError(401, "Unauthorized"), db)
    else match Identify(req)
      case Caller(email) =>
        if email in db.admins then Outcome(Ok(SignupError(ADMIN_SIGNUP_ERROR)), db)
        else if email in db.users then Outcome(Ok(SignupError("User already registered")), db)
        else if email in db.signupRequests then Outcome(Ok(SignupMessage(ALREADY_PENDING)), db)
        else
          var claims := req.claims;
          var request := SignupRequest(claims.name.GetOr(""), claims.picture.GetOr(""), now, Pending);
          Outcome(Ok(SignupMessage(SUBMITTED)), db.(signupRequests := db.signupRequests[email := request]))
      case _ => Outcome(HttpError(400, "Invalid request"), db)
  }

  /** Body of `POST /api/auth/verify`. */
  datatype Verified = Verified(email: Email, isRegistered: bool, isAdmin: bool, user: Option<User>)

  /**
   * `POST /api/auth/verify`: every failure inside the token handling,
   * including a token without an email, surfaces as 401.
   */
  function Verify(db: Db, req: Request): (r: Reply<Verified>)
    ensures req.httpMethod != Post ==> r == HttpError(405, "Method not allowed")
    ensures req.httpMethod == Post && !Identify(req).Caller? ==> r.HttpError? && r.status == 401
    ensures r.Ok? <==> req.httpMethod == Post && Identify(req).Caller?
    ensures r.Ok? ==>
      var email := Identify(req).email;
      && r.body.email == email
      && (r.body.isRegistered <==> email in db.users || email in db.admins)
      && (r.body.isAdmin <==> email in db.admins)
      && (r.body.user.Some? <==> email in db.users)
      && (r.body.user.Some? ==> r.body.user.value == db.users[email])
  {
    if req.httpMethod != Post then HttpError(405, "Method not allowed")
    else if !IsBearer(req.authorization) then HttpError(401, "Unauthorized")
    else match Identify(req)
      case Caller(email) =>
        var isAdmin := email in db.admins;
        var user := if email in db.users then Some(db.users[email]) else None;
        Ok(Verified(email, user.Some? || isAdmin, isAdmin, user))
      case _ => HttpError(401, "Invalid token")
  }

  /**
   * The client's view and the server's gates agree: an identity reported as
   * unregistered is refused by the take and return handlers with 403, and a
   * registered one is never refused for lack of registration.
   */
  lemma VerifyAgreesWithCustodyGate(db: Db, req: Request, now: nat)
    requires Verify(db, req).Ok?
    ensures !Verify(db, req).body.isRegistered ==>
      && Custody.TakeKey(db, req, now).reply == HttpError(403, "User not registered or approved")
      && Custody.ReturnKey(db, req, now).reply == HttpError(403, "User not registered or approved")
    ensures Verify(db, req).body.isRegistered ==>
      && Custody.TakeKey(db, req, now).reply != HttpError(403, "User not registered or approved")
      && Custody.ReturnKey(db, req, now).reply != HttpError(403, "User not registered or approved")
  {
  }

  /**
   * The admin list and the client's view agree: a signed-in identity is
   * listed exactly when it is reported registered, with the admin flag the
   * client is told.
   */
  lemma ListingAgreesWithVerify(db: Db, req: Request)
    requires Verify(db, req).Ok?
    ensures var listed := Directory.ListUsers(db).users;
      var v := Verify(db, req).body;
      && (v.email in listed <==> v.isRegistered)
      && (v.email in listed ==> listed[v.email].isAdmin == v.isAdmin)
  {
  }

  /**
   * Signup and approval together: a filed request leaves the caller
   * unregistered and shows it as pending to admins; once an admin approves
   * it, verify reports the caller registered.
   */
  lemma SignupThenApproveRegisters(db: Db, req: Request, now: nat)
    requires SignupFiles(db, req)
    ensures var email := Identify(req).email;
      var filed := Signup(db, req, now).db;
      var approved := Directory.ManageUser(filed, Directory.ManageBody(Some("approve"), Some(email))).db;
      && Verify(filed, req).Ok? && !Verify(filed, req).body.isRegistered
      && email in Directory.ListUsers(filed).requests
      && Verify(approved, req).Ok? && Verify(approved, req).body.isRegistered
      && !Verify(approved, req).body.isAdmin
  {
    var email := Identify(req).email;
    var filed := Signup(db, req, now).db;
    assert Directory.HasPendingRequest(filed, email);
  }
}

=== FILE: custody.dfy ===
/**
 * The custody state machine: the take, return, admin reset and raw log
 * handlers, each a pure transition from a database state to a reply and a
 * new state. Only `keyEvents` ever changes here, and only by appending.
 */
module Custody {
  import opened Optional
  import opened KeyStore
  import opened Http

  /** Body of a successful take or return: its message and the new event's position in the log. */
  datatype Appended = Appended(message: string, eventId: nat)

  const NO_RFID_FOR_TAKE := "No RFID tag assigned to your account. Please contact an admin."
  const NO_RFID_FOR_RETURN := "No RFID tag assigned to your account. Please contact an admin to assign an RFID tag."

  /** `users.findOne({ email })`. */
  function Lookup(users: map<Email, User>, email: Email): Option<User> {
    if email in users then Some(users[email]) else None
  }

  /** `user?.rfid` is truthy. */
  predicate HasRfid(user: Option<User>) {
    user.Some? && Present(user.value.rfid)
  }

  const ADMIN_TAG_PREFIX := "admin-"

  /** The tag a take is recorded under: the caller's own rfid, or else a synthetic per-admin tag. */
  function TakerTag(user: Option<User>, email: Email): Rfid {
    if HasRfid(user) then user.value.rfid.value else ADMIN_TAG_PREFIX + email
  }

  function AlreadyTakenMessage(holder: string): string {
    "Key is already taken by " + holder
  }

  function NotHolderMessage(holder: string): string {
    "Key is currently taken by " + holder + ". Only they or an admin can return it."
  }

  /** Who may take the key: any admin, and any registered user who holds an rfid. */
  predicate MayTake(db: Db, req: Request) {
    && req.httpMethod == Post
    && Identify(req).Caller?
    && var email := Identify(req).email;
       email in db.admins || HasRfid(Lookup(db.users, email))
  }

  /**
   * Who may return the key: a registered user with an rfid (admins included,
   * admins without one are refused), while the key is out, who is its holder
   * or an admin.
   */
  predicate MayReturn(db: Db, req: Request) {
    && req.httpMethod == Post
    && Identify(req).Caller?
    && var email := Identify(req).email;
       && HasRfid(Lookup(db.users, email))
       && IsTaken(db.keyEvents)
       && (Last(db.keyEvents).rfid == db.users[email].rfid.value || email in db.admins)
  }

  function Reject<T>(db: Db, status: int, message: string): Outcome<T> {
    Outcome(HttpError(status, message), db)
  }

  /** `POST /api/take-key`. */
  ghost function TakeKey(db: Db, req: Request, now: nat): (r: Outcome<Appended>)
    ensures r.db.users == db.users && r.db.admins == db.admins && r.db.signupRequests == db.signupRequests
    ensures r.reply.HttpError? ==> r.db == db
    ensures r.reply.Ok? <==> MayTake(db, req) && !IsTaken(db.keyEvents)
    ensures req.httpMethod != Post ==> r.reply == HttpError(405, "Method not allowed")
    ensures r.reply.Ok? ==>
      var email := Identify(req).email;
      && r.db.keyEvents == db.keyEvents + [PlainEvent(TakerTag(Lookup(db.users, email), email), Take, now)]
      && r.reply.body.eventId == |db.keyEvents|
      && IsTaken(r.db.keyEvents)
    ensures req.httpMethod == Post && !IsBearer(req.authorization) ==> r.reply == HttpError(401, "Authentication required")
    ensures req.httpMethod == Post && Identify(req).Caller? && Identify(req).email !in db.users && Identify(req).email !in db.admins
      ==> r.reply == HttpError(403, "User not registered or approved")
    ensures req.httpMethod == Post && Identify(req).Caller? && Identify(req).email in db.users && Identify(req).email !in db.admins
            && !Present(db.users[Identify(req).email].rfid)
      ==> r.reply == HttpError(400, NO_RFID_FOR_TAKE)
    ensures MayTake(db, req) && IsTaken(db.keyEvents) ==> r.reply.HttpError? && r.reply.status == 409
    ensures Alternates(db.keyEvents) ==> Alternates(r.db.keyEvents)
    ensures Chronological(db.keyEvents) && NotBefore(db.keyEvents, now) ==> Chronological(r.db.keyEvents)
  {
    if req.httpMethod != Post then Reject(db, 405, "Method not allowed")
    else match Identify(req)
      case Caller(email) =>
        var isAdmin := email in db.admins;
        var user := Lookup(db.users, email);
        if user.None? && !isAdmin then Reject(db, 403, "User not registered or approved")
        else if !HasRfid(user) && !isAdmin then Reject(db, 400, NO_RFID_FOR_TAKE)
        else if IsTaken(db.keyEvents) then
          Reject(db, 409, AlreadyTakenMessage(HolderName(db.users, Last(db.keyEvents).rfid, "Unknown")))
        else
          var e := PlainEvent(TakerTag(user, email), Take, now);
          AppendKeepsAlternation(db.keyEvents, e);
          AppendKeepsChronological(db.keyEvents, e);
          Outcome(Ok(Appended("Key taken successfully!", |db.keyEvents|)), db.(keyEvents := db.keyEvents + [e]))
      case _ => Outcome(PreambleError(Identify(req), "Authentication required"), db)
  }

  /**
   * A refused take names the current holder: "Unknown" when no user holds
   * the recorded tag, and the holder's name when the tag is held.
   */
  lemma TakeConflictNamesHolder(db: Db, req: Request, now: nat)
    requires MayTake(db, req) && IsTaken(db.keyEvents)
    ensures (forall e :: e in db.users ==> db.users[e].rfid != Some(Last(db.keyEvents).rfid))
      ==> TakeKey(db, req, now).reply == HttpError(409, AlreadyTakenMessage("Unknown"))
    ensures forall e ::
              (RfidsUnique(db.users) && HoldsRfid(db.users, e, Last(db.keyEvents).rfid)
               ==> TakeKey(db, req, now).reply == HttpError(409, AlreadyTakenMessage(db.users[e].name)))
  {
    forall e | RfidsUnique(db.users) && HoldsRfid(db.users, e, Last(db.keyEvents).rfid)
      ensures TakeKey(db, req, now).reply == HttpError(409, AlreadyTakenMessage(db.users[e].name))
    {
      HolderIsUnique(db.users, e, Last(db.keyEvents).rfid);
    }
  }

  /** `POST /api/return-key`. */
  ghost function ReturnKey(db: Db, req: Request, now: nat): (r: Outcome<Appended>)
    ensures r.db.users == db.users && r.db.admins == db.admins && r.db.signupRequests == db.signupRequests
    ensures r.reply.HttpError? ==> r.db == db
    ensures r.reply.Ok? <==> MayReturn(db, req)
    ensures req.httpMethod != Post ==> r.reply == HttpError(405, "Method not allowed")
    ensures r.reply.Ok? ==>
      && r.db.keyEvents == db.keyEvents + [PlainEvent(Last(db.keyEvents).rfid, Return, now)]
      && r.reply.body.eventId == |db.keyEvents|
      && !IsTaken(r.db.keyEvents)
    ensures req.httpMethod == Post && !IsBearer(req.authorization) ==> r.reply == HttpError(401, "Authentication required")
    ensures req.httpMethod == Post && Identify(req).Caller? && Identify(req).email !in db.users && Identify(req).email !in db.admins
      ==> r.reply == HttpError(403, "User not registered or approved")
    ensures req.httpMethod == Post && Identify(req).Caller? && !HasRfid(Lookup(db.users, Identify(req).email))
            && (Identify(req).email in db.users || Identify(req).email in db.admins)
      ==> r.reply == HttpError(400, NO_RFID_FOR_RETURN)
    ensures req.httpMethod == Post && Identify(req).Caller? && HasRfid(Lookup(db.users, Identify(req).email)) && !IsTaken(db.keyEvents)
      ==> r.reply == HttpError(409, "Key is not currently taken")
    ensures req.httpMethod == Post && Identify(req).Caller? && HasRfid(Lookup(db.users, Identify(req).email)) && IsTaken(db.keyEvents)
            && Identify(req).email !in db.admins && Last(db.keyEvents).rfid != db.users[Identify(req).email].rfid.value
      ==> r.reply.HttpError? && r.reply.status == 403
    ensures Alternates(db.keyEvents) ==> Alternates(r.db.keyEvents)
    ensures Chronological(db.keyEvents) && NotBefore(db.keyEvents, now) ==> Chronological(r.db.keyEvents)
  {
    if req.httpMethod != Post then Reject(db, 405, "Method not allowed")
    else match Identify(req)
      case Caller(email) =>
        var isAdmin := email in db.admins;
        var user := Lookup(db.users, email);
        if user.None? && !isAdmin then Reject(db, 403, "User not registered or approved")
        else if !HasRfid(user) then Reject(db, 400, NO_RFID_FOR_RETURN)
        else if !IsTaken(db.keyEvents) then Reject(db, 409, "Key is not currently taken")
        else
          var current := Last(db.keyEvents);
          if current.rfid != user.value.rfid.value && !isAdmin then
            Reject(db, 403, NotHolderMessage(HolderName(db.users, current.rfid, "Another user")))
          else
            var e := PlainEvent(current.rfid, Return, now);
            AppendKeepsAlternation(db.keyEvents, e);
            AppendKeepsChronological(db.keyEvents, e);
            Outcome(Ok(Appended("Key returned successfully!", |db.keyEvents|)), db.(keyEvents := db.keyEvents + [e]))
      case _ => Outcome(PreambleError(Identify(req), "Authentication required"), db)
  }

  /**
   * A refused return by someone other than the holder names the holder, or
   * says "Another user" when no user holds the recorded tag.
   */
  lemma ReturnRefusalNamesHolder(db: Db, req: Request, now: nat)
    requires req.httpMethod == Post && Identify(req).Caller?
    requires HasRfid(Lookup(db.users, Identify(req).email)) && IsTaken(db.keyEvents)
    requires Identify(req).email !in db.admins && Last(db.keyEvents).rfid != db.users[Identify(req).email].rfid.value
    ensures (forall e :: e in db.users ==> db.users[e].rfid != Some(Last(db.keyEvents).rfid))
      ==> ReturnKey(db, req, now).reply
          == HttpError(403, NotHolderMessage("Another user"))
    ensures forall e ::
              (RfidsUnique(db.users) && HoldsRfid(db.users, e, Last(db.keyEvents).rfid)
               ==> ReturnKey(db, req, now).reply
                   == HttpError(403, NotHolderMessage(db.users[e].name)))
  {
    forall e | RfidsUnique(db.users) && HoldsRfid(db.users, e, Last(db.keyEvents).rfid)
      ensures ReturnKey(db, req, now).reply
              == HttpError(403, NotHolderMessage(db.users[e].name))
    {
      HolderIsUnique(db.users, e, Last(db.keyEvents).rfid);
    }
  }

  /** The optional body of an admin reset; a missing body leaves both fields unset. */
  datatype ResetBody = ResetBody(reason: Option<string>, forceReturn: bool)

  datatype ResetReply =
    | NoAction(message: string)
    | RequiresForce(message: string, orphanedRfid: Rfid, takenAt: nat)
    | Reset(message: string, eventId: nat, previousHolder: string)
  {
    /** The reply's `success` field. */
    predicate Success() {
      !RequiresForce?
    }
  }

  const ADMIN_RESET_TAG := "ADMIN-RESET"
  const DEFAULT_RESET_REASON := "Admin reset - orphaned key"

  /** The key is out under a tag no user holds. */
  predicate IsOrphaned(db: Db) {
    IsTaken(db.keyEvents) && forall e :: e in db.users ==> db.users[e].rfid != Some(Last(db.keyEvents).rfid)
  }

  /** The synthetic return an admin reset appends, attributed to the admin and naming the tag it releases. */
  function ResetEvent(admin: Email, reason: Option<string>, released: Rfid, now: nat): KeyEvent {
    KeyEvent(ADMIN_RESET_TAG, Return, now, Some(admin), Some(if Present(reason) then reason.value else DEFAULT_RESET_REASON),
             Some(released))
  }

  /** `POST /api/admin/reset-key`. */
  ghost function ResetKey(db: Db, req: Request, body: ResetBody, now: nat): (r: Outcome<ResetReply>)
    ensures r.db.users == db.users && r.db.admins == db.admins && r.db.signupRequests == db.signupRequests
    ensures r.reply.HttpError? ==> r.db == db
    ensures r.reply.Ok? <==> req.httpMethod == Post && Identify(req).Caller? && Identify(req).email in db.admins
    ensures req.httpMethod != Post ==> r.reply == HttpError(405, "Method not allowed")
    ensures req.httpMethod == Post && Identify(req).Caller? && Identify(req).email !in db.admins
      ==> r.reply == HttpError(403, "Admin access required")
    ensures r.reply.Ok? && !IsTaken(db.keyEvents) ==> r.reply.body.NoAction? && r.db == db
    ensures r.reply.Ok? && IsTaken(db.keyEvents) ==> !r.reply.body.NoAction?
    ensures r.reply.Ok? && IsTaken(db.keyEvents) ==> (r.reply.body.RequiresForce? <==> IsOrphaned(db) && !body.forceReturn)
    ensures r.reply.Ok? && r.reply.body.RequiresForce? ==>
      && r.db == db
      && r.reply.body.orphanedRfid == Last(db.keyEvents).rfid
      && r.reply.body.takenAt == Last(db.keyEvents).timestamp
    ensures r.reply.Ok? && r.reply.body.Reset? ==>
      && r.db.keyEvents == db.keyEvents + [ResetEvent(Identify(req).email, body.reason, Last(db.keyEvents).rfid, now)]
      && r.reply.body.eventId == |db.keyEvents|
      && !IsTaken(r.db.keyEvents)
    ensures r.reply.Ok? ==> (r.reply.body.Success() <==> !(IsOrphaned(db) && !body.forceReturn))
    ensures Alternates(db.keyEvents) ==> Alternates(r.db.keyEvents)
    ensures Chronological(db.keyEvents) && NotBefore(db.keyEvents, now) ==> Chronological(r.db.keyEvents)
  {
    if req.httpMethod != Post then Reject(db, 405, "Method not allowed")
    else match Identify(req)
      case Caller(email) =>
        if email !in db.admins then Reject(db, 403, "Admin access required")
        else if db.keyEvents == [] then
          Outcome(Ok(NoAction("Key is already in default state (available)")), db)
        else
          var current := Last(db.keyEvents);
          if current.eventType == Return then
            Outcome(Ok(NoAction("Key is already available")), db)
          else
            var holder := HolderOf(db.users, current.rfid);
            if holder.None? && !body.forceReturn then
              Outcome(Ok(RequiresForce("Key is taken by orphaned RFID: " + current.rfid + ". Use forceReturn: true to reset.",
                                       current.rfid, current.timestamp)), db)
            else
              var e := ResetEvent(email, body.reason, current.rfid, now);
              AppendKeepsAlternation(db.keyEvents, e);
              AppendKeepsChronological(db.keyEvents, e);
              var previous := if holder.Some? then db.users[holder.value].name else "Orphaned RFID: " + current.rfid;
              Outcome(Ok(Reset("Key status reset by admin", |db.keyEvents|, previous)), db.(keyEvents := db.keyEvents + [e]))
      case _ => Outcome(PreambleError(Identify(req), "Authentication required"), db)
  }

  /**
   * A reset reports whom it evicted: the holder's name when a user holds the
   * tag, and "Orphaned RFID: " with the tag otherwise.
   */
  lemma ResetNamesPreviousHolder(db: Db, req: Request, body: ResetBody, now: nat)
    requires ResetKey(db, req, body, now).reply.Ok? && ResetKey(db, req, body, now).reply.body.Reset?
    ensures IsOrphaned(db)
      ==> ResetKey(db, req, body, now).reply.body.previousHolder == "Orphaned RFID: " + Last(db.keyEvents).rfid
    ensures forall e ::
              (RfidsUnique(db.users) && HoldsRfid(db.users, e, Last(db.keyEvents).rfid)
               ==> ResetKey(db, req, body, now).reply.body.previousHolder == db.users[e].name)
  {
    forall e | RfidsUnique(db.users) && HoldsRfid(db.users, e, Last(db.keyEvents).rfid)
      ensures ResetKey(db, req, body, now).reply.body.previousHolder == db.users[e].name
    {
      HolderIsUnique(db.users, e, Last(db.keyEvents).rfid);
    }
  }

  /** Body of `POST /api/log-key-event`; every reply has status 200. */
  datatype LogReply = Logged(eventId: nat) | Refused(error: string)

  /** The `eventType` field, when it is one of the two the handler accepts. */
  function ParseEventType(s: Option<string>): (t: Option<EventType>)
    ensures t == Some(Take) <==> s == Some("take")
    ensures t == Some(Return) <==> s == Some("return")
  {
    if s == Some("take") then Some(Take)
    else if s == Some("return") then Some(Return)
    else None
  }

  /**
   * `POST /api/log-key-event`: validates its two fields and appends,
   * without any authentication and without consulting the current status.
   */
  function LogKeyEvent(db: Db, httpMethod: Method, rfid: Option<string>, eventType: Option<string>, now: nat): (r: Outcome<LogReply>)
    ensures r.reply.Ok?
    ensures r.reply.body.Logged? <==> httpMethod == Post && Present(rfid) && ParseEventType(eventType).Some?
    ensures r.reply.body.Refused? ==> r.db == db
    ensures r.reply.body.Logged? ==>
      r.db == db.(keyEvents := db.keyEvents + [PlainEvent(rfid.value, ParseEventType(eventType).value, now)])
    ensures Chronological(db.keyEvents) && NotBefore(db.keyEvents, now) ==> Chronological(r.db.keyEvents)
  {
    if httpMethod != Post then Outcome(Ok(Refused("Method not allowed")), db)
    else if !Present(rfid) || eventType.None? || eventType.value == "" || ParseEventType(eventType).None? then
      Outcome(Ok(Refused("Missing or invalid fields")), db)
    else
      var e := PlainEvent(rfid.value, ParseEventType(eventType).value, now);
      AppendKeepsChronological(db.keyEvents, e);
      Outcome(Ok(Logged(|db.keyEvents|)), db.(keyEvents := db.keyEvents + [e]))
  }

  /**
   * The raw log path does not keep the alternation: a second take after a
   * take is appended all the same.
   */
  lemma LogKeyEventCanBreakAlternation()
    ensures exists db: Db, now: nat ::
      Alternates(db.keyEvents) && !Alternates(LogKeyEvent(db, Post, Some("A"), Some("take"), now).db.keyEvents)
  {
    var db := Db([PlainEvent("A", Take, 0)], map[], {}, map[]);
    var after := LogKeyEvent(db, Post, Some("A"), Some("take"), 1).db.keyEvents;
    assert after[1].eventType == Take;
    assert Alternates(db.keyEvents) && !Alternates(after);
  }
}

=== FILE: custody_runs.dfy ===
/**
 * Sequences of custody requests (take, return and admin reset) run one
 * after another through the whole server: the log only grows, takes and
 * returns keep alternating, and a burst of takes appends at most one event.
 */
module CustodyRuns {
  import opened Optional
  import opened KeyStore
  import opened Http
  import opened Custody
  import opened Server

  /** A request to one of the guarded custody handlers. */
  predicate IsCustodyCall(call: Call) {
    call.TakeRequest? || call.ReturnRequest? || call.ResetRequest?
  }

  predicate AllCustodyCalls(calls: seq<Call>) {
    forall i :: 0 <= i < |calls| ==> IsCustodyCall(calls[i])
  }

  /** Whatever the custody calls, takes and returns keep alternating, starting with a take. */
  lemma RunKeepsAlternation(db: Db, calls: seq<Call>)
    requires Alternates(db.keyEvents) && AllCustodyCalls(calls)
    ensures Alternates(Run(db, calls).keyEvents)
  {
    assert forall i :: 0 <= i < |calls| ==> Guarded(calls[i]) by {
      forall i | 0 <= i < |calls| ensures Guarded(calls[i]) {
        assert IsCustodyCall(calls[i]);
      }
    }
    GuardedRunKeepsAlternation(db, calls);
  }

  /**
   * The log is append-only: every earlier event stays in place, and the
   * user directory is never touched.
   */
  lemma {:induction false} RunIsAppendOnly(db: Db, calls: seq<Call>)
    requires AllCustodyCalls(calls)
    ensures db.keyEvents <= Run(db, calls).keyEvents
    ensures Run(db, calls).users == db.users && Run(db, calls).admins == db.admins
    decreases |calls|
  {
    if calls != [] {
      assert IsCustodyCall(calls[0]);
      var next := Step(db, calls[0]);
      RunIsAppendOnly(next, calls[1..]);
      assert db.keyEvents <= next.keyEvents;
    }
  }

  predicate AllTakes(calls: seq<Call>) {
    forall i :: 0 <= i < |calls| ==> calls[i].TakeRequest?
  }

  /** Once the key is out, any number of further takes changes nothing. */
  lemma {:induction false} TakesWhileTakenChangeNothing(db: Db, calls: seq<Call>)
    requires IsTaken(db.keyEvents) && AllTakes(calls)
    ensures Run(db, calls) == db
    decreases |calls|
  {
    if calls != [] {
      assert calls[0].TakeRequest?;
      assert Step(db, calls[0]) == db;
      TakesWhileTakenChangeNothing(db, calls[1..]);
    }
  }

  /**
   * A burst of take requests handled one at a time appends at most one
   * event: after the first success every other take is refused.
   */
  lemma {:induction false} TakeBurstAppendsAtMostOne(db: Db, calls: seq<Call>)
    requires AllTakes(calls)
    ensures |Run(db, calls).keyEvents| <= |db.keyEvents| + 1
    decreases |calls|
  {
    if calls != [] {
      assert calls[0].TakeRequest?;
      var next := Step(db, calls[0]);
      if next == db {
        TakeBurstAppendsAtMostOne(db, calls[1..]);
      } else {
        assert IsTaken(next.keyEvents) && |next.keyEvents| == |db.keyEvents| + 1;
        TakesWhileTakenChangeNothing(next, calls[1..]);
      }
    }
  }

  /**
   * Two registered users and an admin, in the order the custody rules are
   * usually told: Ann takes the key; Bob's take is refused naming Ann; Bob's
   * return is refused naming Ann; Ann returns it; an admin reset then finds
   * nothing to do.
   */
  lemma TwoUserScenario()
    ensures
      var users := map["ann@lab" := User("Ann", Some("111"), Some("A1")), "bob@lab" := User("Bob", Some("222"), Some("B2"))];
      var db0 := Db([], users, {"root@lab"}, map[]);
      var ann := Request(Post, Some("Bearer a"), Decoded(Some("ann@lab"), None, None));
      var bob := Request(Post, Some("Bearer b"), Decoded(Some("bob@lab"), None, None));
      var root := Request(Post, Some("Bearer r"), Decoded(Some("root@lab"), None, None));
      var db1 := TakeKey(db0, ann, 10).db;
      var db2 := ReturnKey(db1, ann, 40).db;
      && TakeKey(db0, ann, 10).reply.Ok?
      && db1.keyEvents == [PlainEvent("A1", Take, 10)]
      && TakeKey(db1, bob, 20).reply == HttpError(409, AlreadyTakenMessage("Ann"))
      && ReturnKey(db1, bob, 30).reply == HttpError(403, NotHolderMessage("Ann"))
      && ReturnKey(db1, ann, 40).reply.Ok?
      && db2.keyEvents == [PlainEvent("A1", Take, 10), PlainEvent("A1", Return, 40)]
      && ResetKey(db2, root, ResetBody(None, false), 50) == Outcome(Ok(NoAction("Key is already available")), db2)
  {
    var users := map["ann@lab" := User("Ann", Some("111"), Some("A1")), "bob@lab" := User("Bob", Some("222"), Some("B2"))];
    var db0 := Db([], users, {"root@lab"}, map[]);
    var ann := Request(Post, Some("Bearer a"), Decoded(Some("ann@lab"), None, None));
    var bob := Request(Post, Some("Bearer b"), Decoded(Some("bob@lab"), None, None));
    assert IsBearer(ann.authorization) && IsBearer(bob.authorization);
    var db1 := TakeKey(db0, ann, 10).db;
    assert RfidsUnique(users);
    HolderIsUnique(users, "ann@lab", "A1");
    assert TakeKey(db1, bob, 20).reply == HttpError(409, AlreadyTakenMessage("Ann"));
    assert ReturnKey(db1, bob, 30).reply == HttpError(403, NotHolderMessage("Ann"));
  }
}

=== FILE: device.dfy ===
/**
 * The decision logic of the RFID device's `processRFIDCard`: a cooldown on
 * the 32-bit millisecond clock, a cached belief about the key used to choose
 * between a take and a return, and a status resync when a send fails. The
 * HTTP exchanges are replaced by the answers they produce.
 */
module Device {

  /** `unsigned long` on the ESP32 is 32 bits wide. */
  const ULONG_MODULUS: int := 0x1_0000_0000

  type ULong = x: int | 0 <= x < ULONG_MODULUS

  const RFID_COOLDOWN: ULong := 1000

  /** `millis() - lastRFIDTime` in unsigned 32-bit arithmetic. */
  function Elapsed(now: ULong, since: ULong): ULong {
    (now - since) % ULONG_MODULUS
  }

  /** The unsigned subtraction measures the true distance even when the clock wraps in between. */
  lemma ElapsedAcrossWrap(since: ULong, d: nat)
    requires d < ULONG_MODULUS
    ensures Elapsed((since + d) % ULONG_MODULUS, since) == d
  {
    if since + d < ULONG_MODULUS {
      assert (since + d) % ULONG_MODULUS == since + d;
    } else {
      assert (since + d) % ULONG_MODULUS == since + d - ULONG_MODULUS;
      assert (d - ULONG_MODULUS) % ULONG_MODULUS == d;
    }
  }

  /** The sender's globals: `lastRFIDTime`, `keyIsTaken`, `keyStateInitialized`. */
  datatype SenderState = SenderState(lastRfidTime: ULong, keyIsTaken: bool, keyStateInitialized: bool)

  /** What one `checkKeyStatus()` call observes: a 200 reply carrying `keyTaken`, or a failure. */
  datatype StatusAnswer = StatusOk(keyTaken: bool) | StatusFailed

  /** The answers the server gives during one scan, in the order the device may ask. */
  datatype ServerAnswers = ServerAnswers(initial: StatusAnswer, sendCode: int, resync: StatusAnswer)

  /** A request the device makes. */
  datatype DeviceCall = StatusRequest | EventPost(rfid: string, eventType: string)

  /** The state after a scan and the requests made during it. */
  datatype Scan = Scan(state: SenderState, calls: seq<DeviceCall>)

  /** `sendRFIDEvent`'s verdict on the POST's result code; codes of zero or below are transport failures. */
  function SendSucceeded(code: int): (ok: bool)
    ensures ok <==> code == 200
  {
    if code > 0 then code == 200 else false
  }

  /** `checkKeyStatus()`: on success it overwrites the cached belief with the server's answer. */
  function CheckKeyStatus(s: SenderState, answer: StatusAnswer): (r: SenderState)
    ensures r.lastRfidTime == s.lastRfidTime && r.keyStateInitialized == s.keyStateInitialized
    ensures answer.StatusOk? ==> r.keyIsTaken == answer.keyTaken
    ensures answer.StatusFailed? ==> r == s
  {
    match answer
    case StatusOk(taken) => s.(keyIsTaken := taken)
    case StatusFailed => s
  }

  /** The belief the event type is chosen from: the cache, or the first status answer when uninitialised. */
  function Belief(s: SenderState, answers: ServerAnswers): bool
    requires s.keyStateInitialized || answers.initial.StatusOk?
  {
    if s.keyStateInitialized then s.keyIsTaken else answers.initial.keyTaken
  }

  predicate InCooldown(s: SenderState, now: ULong) {
    Elapsed(now, s.lastRfidTime) < RFID_COOLDOWN
  }

  /** The event type posted for a belief about the key: `return` while it is believed out. */
  function DeviceEventType(believesTaken: bool): string {
    if believesTaken then "return" else "take"
  }

  /** The number of events the scan posted. */
  function PostCount(calls: seq<DeviceCall>): nat {
    if calls == [] then 0 else (if calls[0].EventPost? then 1 else 0) + PostCount(calls[1..])
  }

  /**
   * `processRFIDCard(uid)` with `millis()` read as `now`. It never sets
   * `keyStateInitialized`; only the start-up routine does.
   */
  function ProcessRfidCard(s: SenderState, uid: string, now: ULong, answers: ServerAnswers): (r: Scan)
    ensures InCooldown(s, now) ==> r == Scan(s, [])
    ensures !InCooldown(s, now) ==> r.state.lastRfidTime == now && r.state.keyStateInitialized == s.keyStateInitialized
    ensures !InCooldown(s, now) && !s.keyStateInitialized && answers.initial.StatusFailed? ==>
      r.calls == [StatusRequest] && r.state.keyIsTaken == s.keyIsTaken
    ensures PostCount(r.calls) <= 1
    ensures PostCount(r.calls) == 1 <==> !InCooldown(s, now) && (s.keyStateInitialized || answers.initial.StatusOk?)
    ensures PostCount(r.calls) == 1 ==>
      && EventPost(uid, DeviceEventType(Belief(s, answers))) in r.calls
      && (SendSucceeded(answers.sendCode) ==> r.state.keyIsTaken == !Belief(s, answers))
      && (!SendSucceeded(answers.sendCode) ==>
            r.state.keyIsTaken == (if answers.resync.StatusOk? then answers.resync.keyTaken else Belief(s, answers)))
  {
    if InCooldown(s, now) then Scan(s, [])
    else
      var s1 := s.(lastRfidTime := now);
      if !s1.keyStateInitialized && answers.initial.StatusFailed? then Scan(s1, [StatusRequest])
      else
        var s2 := if s1.keyStateInitialized then s1 else CheckKeyStatus(s1, answers.initial);
        var asked: seq<DeviceCall> := if s1.keyStateInitialized then [] else [StatusRequest];
        var eventType := DeviceEventType(s2.keyIsTaken);
        var sent := asked + [EventPost(uid, eventType)];
        assert PostCount([EventPost(uid, eventType)]) == 1;
        if SendSucceeded(answers.sendCode) then
          assert PostCount(sent) == 1 by { PostCountAppend(asked, [EventPost(uid, eventType)]); }
          Scan(s2.(keyIsTaken := !s2.keyIsTaken), sent)
        else
          assert PostCount(sent + [StatusRequest]) == 1 by {
            PostCountAppend(asked, [EventPost(uid, eventType)]);
            PostCountAppend(sent, [StatusRequest]);
          }
          Scan(CheckKeyStatus(s2, answers.resync), sent + [StatusRequest])
  }

  lemma {:induction false} PostCountAppend(a: seq<DeviceCall>, b: seq<DeviceCall>)
    ensures PostCount(a + b) == PostCount(a) + PostCount(b)
    decreases |a|
  {
    if a != [] {
      assert (a + b)[1..] == a[1..] + b;
      PostCountAppend(a[1..], b);
    } else {
      assert a + b == b;
    }
  }
}

=== FILE: device_protocol.dfy ===
/**
 * The device and the server together: the device posts its scans to the
 * unguarded log endpoint, so the log keeps alternating only as long as the
 * device's cached belief matches the log.
 */
module DeviceProtocol {
  import opened Optional
  import opened KeyStore
  import opened Http
  import opened Custody
  import opened Device
  import KeyStatus

  /**
   * A device whose belief matches the log, posting a scan that the log
   * endpoint accepts, appends the kind that is due and ends up believing
   * what the new log says.
   */
  lemma InSyncScanKeepsLogAndBelief(s: SenderState, uid: string, now: ULong, answers: ServerAnswers, db: Db, t: nat)
    requires !InCooldown(s, now) && s.keyStateInitialized && s.keyIsTaken == IsTaken(db.keyEvents)
    requires uid != "" && answers.sendCode == 200
    ensures EventPost(uid, DeviceEventType(s.keyIsTaken)) in ProcessRfidCard(s, uid, now, answers).calls
    ensures var sent := LogKeyEvent(db, Post, Some(uid), Some(DeviceEventType(s.keyIsTaken)), t);
      && sent.reply.body.Logged?
      && ProcessRfidCard(s, uid, now, answers).state.keyIsTaken == IsTaken(sent.db.keyEvents)
      && (Alternates(db.keyEvents) ==> Alternates(sent.db.keyEvents))
  {
    var sent := LogKeyEvent(db, Post, Some(uid), Some(DeviceEventType(s.keyIsTaken)), t);
    var e := PlainEvent(uid, if s.keyIsTaken then Return else Take, t);
    assert sent.db.keyEvents == db.keyEvents + [e];
    AppendKeepsAlternation(db.keyEvents, e);
  }

  /**
   * A device whose belief is stale posts the kind that is not due, and the
   * log endpoint appends it: the log stops alternating.
   */
  lemma StaleScanBreaksAlternation(s: SenderState, uid: string, now: ULong, answers: ServerAnswers, db: Db, t: nat)
    requires !InCooldown(s, now) && s.keyStateInitialized
    requires s.keyIsTaken != IsTaken(db.keyEvents) && uid != ""
    ensures EventPost(uid, DeviceEventType(s.keyIsTaken)) in ProcessRfidCard(s, uid, now, answers).calls
    ensures var sent := LogKeyEvent(db, Post, Some(uid), Some(DeviceEventType(s.keyIsTaken)), t);
      sent.reply.body.Logged? && !Alternates(sent.db.keyEvents)
  {
    var e := PlainEvent(uid, if s.keyIsTaken then Return else Take, t);
    AppendOutOfTurnBreaksAlternation(db.keyEvents, e);
  }

  /**
   * A status answer taken from the device endpoint puts the device in sync:
   * a first scan by an uninitialised device chooses its event from the
   * server's `keyTaken`, which is the log's status.
   */
  lemma StatusAnswerSyncsBelief(s: SenderState, now: ULong, answers: ServerAnswers, db: Db,
                                apiKey: Option<string>, deviceId: Option<string>, configuredKey: Option<string>, clock: nat)
    requires !s.keyStateInitialized
    requires KeyStatus.GetKeyStatusForEsp(db.keyEvents, apiKey, deviceId, configuredKey, clock).Ok?
    requires answers.initial == StatusOk(KeyStatus.GetKeyStatusForEsp(db.keyEvents, apiKey, deviceId, configuredKey, clock).body.keyTaken)
    ensures Belief(s, answers) == IsTaken(db.keyEvents)
  {
  }

  /**
   * The log endpoint answers status 200 even when it refuses an event, and
   * the device counts any 200 as success: a refused post still flips the
   * device's belief, which then disagrees with the unchanged log.
   */
  lemma RefusedPostStillFlipsBelief(s: SenderState, now: ULong, answers: ServerAnswers, db: Db, t: nat)
    requires !InCooldown(s, now) && s.keyStateInitialized && s.keyIsTaken == IsTaken(db.keyEvents)
    requires answers.sendCode == 200
    ensures EventPost("", DeviceEventType(s.keyIsTaken)) in ProcessRfidCard(s, "", now, answers).calls
    ensures var sent := LogKeyEvent(db, Post, Some(""), Some(DeviceEventType(s.keyIsTaken)), t);
      && sent.reply == Ok(Refused("Missing or invalid fields"))
      && sent.db == db
      && ProcessRfidCard(s, "", now, answers).state.keyIsTaken != IsTaken(sent.db.keyEvents)
  {
  }
}

=== FILE: directory.dfy ===
/**
 * The user-directory handlers: an admin assigning an rfid, the admin view
 * and management of users and signup requests, and open registration.
 * None of them touches the key log.
 */
module Directory {
  import opened Optional
  import opened KeyStore
  import opened Http
  import opened JsText

  /** Body of `POST /api/admin/rfid`. */
  datatype RfidBody = RfidBody(email: Option<string>, rfid: Option<string>)

  /** `users.findOne({ rfid: tag, email: { $ne: email } })` finds someone. */
  predicate HeldByAnother(users: map<Email, User>, email: Email, tag: Rfid) {
    exists e :: e in users && e != email && users[e].rfid == Some(tag)
  }

  function AssignedMessage(tag: Rfid, verb: string, email: Email): string {
    "RFID " + tag + " successfully " + verb + " for user " + email
  }

  /** When an rfid assignment goes through. */
  predicate MayAssign(db: Db, req: Request, body: RfidBody) {
    && req.httpMethod == Post
    && Identify(req).Caller? && Identify(req).email in db.admins
    && Present(body.email) && Present(body.rfid)
    && Trim(body.rfid.value) != ""
    && !HeldByAnother(db.users, body.email.value, Trim(body.rfid.value))
    && (body.email.value in db.users || body.email.value in db.admins)
  }

  /**
   * `POST /api/admin/rfid`: sets the trimmed tag on the named user, creating
   * a user record for an admin who has none, unless another user holds it.
   */
  function AssignRfid(db: Db, req: Request, body: RfidBody): (r: Outcome<string>)
    ensures r.db.keyEvents == db.keyEvents && r.db.admins == db.admins && r.db.signupRequests == db.signupRequests
    ensures r.reply.HttpError? ==> r.db == db
    ensures req.httpMethod == Post && Identify(req).Caller? && Identify(req).email !in db.admins
      ==> r.reply == HttpError(403, "Admin access required")
    ensures r.reply.Ok? <==> MayAssign(db, req, body)
    ensures req.httpMethod != Post ==> r.reply == HttpError(405, "Method not allowed")
    ensures MayAssign(db, req, body) ==>
      var email := body.email.value;
      && r.db.users.Keys == db.users.Keys + {email}
      && r.db.users[email].rfid == Some(Trim(body.rfid.value))
      && (forall e :: e in db.users && e != email ==> r.db.users[e] == db.users[e])
      && (email in db.users ==> r.db.users[email] == db.users[email].(rfid := Some(Trim(body.rfid.value))))
      && (email !in db.users ==> r.db.users[email] == User(EmailPrefix(email), Some(""), Some(Trim(body.rfid.value))))
    ensures req.httpMethod == Post && Identify(req).Caller? && Identify(req).email in db.admins
            && Present(body.email) && Present(body.rfid) && Trim(body.rfid.value) != ""
            && HeldByAnother(db.users, body.email.value, Trim(body.rfid.value))
      ==> r.reply.HttpError? && r.reply.status == 409
    ensures req.httpMethod == Post && Identify(req).Caller? && Identify(req).email in db.admins
            && (!Present(body.email) || !Present(body.rfid))
      ==> r.reply == HttpError(400, "Email and RFID are required")
    ensures req.httpMethod == Post && Identify(req).Caller? && Identify(req).email in db.admins
            && Present(body.email) && Present(body.rfid) && Trim(body.rfid.value) == ""
      ==> r.reply == HttpError(400, "RFID cannot be empty")
    ensures req.httpMethod == Post && Identify(req).Caller? && Identify(req).email in db.admins
            && Present(body.email) && Present(body.rfid) && Trim(body.rfid.value) != ""
            && !HeldByAnother(db.users, body.email.value, Trim(body.rfid.value))
            && body.email.value !in db.users && body.email.value !in db.admins
      ==> r.reply == HttpError(404, "User not found")
    ensures RfidsUnique(db.users) ==> RfidsUnique(r.db.users)
    ensures PhonesUnique(db.users) ==> PhonesUnique(r.db.users)
  {
    if req.httpMethod != Post then Outcome(HttpError(405, "Method not allowed"), db)
    else match Identify(req)
      case Caller(caller) =>
        if caller !in db.admins then Outcome(HttpError(403, "Admin access required"), db)
        else if !Present(body.email) || !Present(body.rfid) then Outcome(HttpError(400, "Email and RFID are required"), db)
        else
          var email := body.email.value;
          var tag := Trim(body.rfid.value);
          if tag == "" then Outcome(HttpError(400, "RFID cannot be empty"), db)
          else if HeldByAnother(db.users, email, tag) then
            Outcome(HttpError(409, "RFID " + tag + " is already assigned to another user"), db)
          else if email !in db.users then
            if email in db.admins then
              Outcome(Ok("RFID " + tag + " successfully added for admin user " + email),
                      db.(users := db.users[email := User(EmailPrefix(email), Some(""), Some(tag))]))
            else Outcome(HttpError(404, "User not found"), db)
          else
            var user := db.users[email];
            Outcome(Ok(AssignedMessage(tag, if Present(user.rfid) then "updated" else "added", email)),
                    db.(users := db.users[email := user.(rfid := Some(tag))]))
      case _ => Outcome(PreambleError(Identify(req), "Unauthorized"), db)
  }

  /** For an existing user the reply says "updated" exactly when the user already had an rfid. */
  lemma AssignSaysUpdated(db: Db, req: Request, body: RfidBody)
    requires MayAssign(db, req, body) && body.email.value in db.users
    ensures AssignRfid(db, req, body).reply.body == AssignedMessage(Trim(body.rfid.value), "updated", body.email.value)
            <==> Present(db.users[body.email.value].rfid)
  {
    var tag, email := Trim(body.rfid.value), body.email.value;
    var k := |"RFID " + tag + " successfully "|;
    assert AssignedMessage(tag, "updated", email)[k] == 'u';
    assert AssignedMessage(tag, "added", email)[k] == 'a';
  }

  /** A user as the admin list shows it. */
  datatype ListedUser = ListedUser(name: string, phone: Option<string>, rfid: Option<Rfid>, isAdmin: bool)

  /** Body of `GET /api/admin/users`: pending requests and the merged user list, keyed by email. */
  datatype Listing = Listing(requests: map<Email, SignupRequest>, users: map<Email, ListedUser>)

  /**
   * The merge of users and admins: every user once, flagged when also an
   * admin, and every admin without a user record once, named by the email's
   * local part; plus the pending signup requests.
   */
  function ListUsers(db: Db): (l: Listing)
    ensures l.users.Keys == db.users.Keys + db.admins
    ensures forall e :: e in l.users ==> (l.users[e].isAdmin <==> e in db.admins)
    ensures forall e :: e in db.users ==>
      var u := db.users[e]; l.users[e] == ListedUser(u.name, u.phone, u.rfid, e in db.admins)
    ensures forall e :: e in db.admins && e !in db.users ==> l.users[e] == ListedUser(EmailPrefix(e), None, None, true)
    ensures forall e :: e in l.requests <==> e in db.signupRequests && db.signupRequests[e].status == Pending
    ensures forall e :: e in l.requests ==> l.requests[e] == db.signupRequests[e]
  {
    var pending := map e | e in db.signupRequests && db.signupRequests[e].status == Pending :: db.signupRequests[e];
    var merged := map e | e in db.users.Keys + db.admins ::
      if e in db.users then
        var u := db.users[e]; ListedUser(u.name, u.phone, u.rfid, e in db.admins)
      else ListedUser(EmailPrefix(e), None, None, true);
    Listing(pending, merged)
  }

  /** Body of `POST /api/admin/users`. */
  datatype ManageBody = ManageBody(action: Option<string>, email: Option<string>)

  predicate HasPendingRequest(db: Db, email: Email) {
    email in db.signupRequests && db.signupRequests[email].status == Pending
  }

  /**
   * The POST half of `/api/admin/users`: remove a non-admin user, or approve
   * or reject a pending signup request.
   */
  function ManageUser(db: Db, body: ManageBody): (r: Outcome<string>)
    ensures r.db.keyEvents == db.keyEvents && r.db.admins == db.admins
    ensures r.reply.HttpError? ==> r.db == db
    ensures !Present(body.action) || !Present(body.email) ==> r.reply == HttpError(400, "Missing action or email")
    ensures Present(body.action) && Present(body.email) && body.action.value == "remove" ==>
      var email := body.email.value;
      && (email in db.admins ==> r.reply == HttpError(403, "Cannot remove admin users"))
      && (email !in db.admins && email !in db.users ==> r.reply == HttpError(404, "User not found"))
      && (r.reply.Ok? <==> email !in db.admins && email in db.users)
      && (r.reply.Ok? ==> r.db == db.(users := db.users - {email}))
    ensures Present(body.action) && Present(body.email) && body.action.value != "remove" && !HasPendingRequest(db, body.email.value)
      ==> r.reply == HttpError(404, "Signup request not found")
    ensures Present(body.action) && Present(body.email) && body.action.value == "approve" && HasPendingRequest(db, body.email.value) ==>
      var email := body.email.value;
      && r.reply.Ok?
      && email in r.db.users
      && (email in db.users ==> r.db.users == db.users)
      && (email !in db.users ==> r.db.users == db.users[email := User(db.signupRequests[email].name, None, None)])
      && r.db.signupRequests == db.signupRequests[email := db.signupRequests[email].(status := Approved)]
    ensures Present(body.action) && Present(body.email) && body.action.value == "reject" && HasPendingRequest(db, body.email.value) ==>
      var email := body.email.value;
      r.reply.Ok? && r.db == db.(signupRequests := db.signupRequests[email := db.signupRequests[email].(status := Rejected)])
    ensures Present(body.action) && Present(body.email) && body.action.value !in {"remove", "approve", "reject"}
            && HasPendingRequest(db, body.email.value)
      ==> r.reply == HttpError(400, "Invalid action")
    ensures RfidsUnique(db.users) ==> RfidsUnique(r.db.users)
    ensures PhonesUnique(db.users) ==> PhonesUnique(r.db.users)
  {
    if !Present(body.action) || !Present(body.email) then Outcome(HttpError(400, "Missing action or email"), db)
    else
      var action, email := body.action.value, body.email.value;
      if action == "remove" then
        if email in db.admins then Outcome(HttpError(403, "Cannot remove admin users"), db)
        else if email !in db.users then Outcome(HttpError(404, "User not found"), db)
        else Outcome(Ok("User removed successfully"), db.(users := db.users - {email}))
      else if !HasPendingRequest(db, email) then Outcome(HttpError(404, "Signup request not found"), db)
      else
        var request := db.signupRequests[email];
        if action == "approve" then
          var users := if email in db.users then db.users else db.users[email := User(request.name, None, None)];
          Outcome(Ok("User approved successfully"),
                  db.(users := users, signupRequests := db.signupRequests[email := request.(status := Approved)]))
        else if action == "reject" then
          Outcome(Ok("User rejected"), db.(signupRequests := db.signupRequests[email := request.(status := Rejected)]))
        else Outcome(HttpError(400, "Invalid action"), db)
  }

  datatype AdminUsersReply = Listed(listing: Listing) | Done(message: string)

  /** `/api/admin/users`: admin-only; GET lists, POST manages, any other method is refused after the admin check. */
  function AdminUsers(db: Db, req: Request, body: ManageBody): (r: Outcome<AdminUsersReply>)
    ensures r.db.keyEvents == db.keyEvents && r.db.admins == db.admins
    ensures r.reply.HttpError? ==> r.db == db
    ensures !IsBearer(req.authorization) ==> r.reply == HttpError(401, "Unauthorized")
    ensures Identify(req).Caller? && Identify(req).email !in db.admins ==> r.reply == HttpError(403, "Admin access required")
    ensures Identify(req).Caller? && Identify(req).email in db.admins && req.httpMethod == Get
      ==> r == Outcome(Ok(Listed(ListUsers(db))), db)
    ensures Identify(req).Caller? && Identify(req).email in db.admins && req.httpMethod == OtherMethod
      ==> r.reply == HttpError(405, "Method not allowed")
    ensures Identify(req).Caller? && Identify(req).email in db.admins && req.httpMethod == Post
      ==> r.db == ManageUser(db, body).db
          && (r.reply.Ok? <==> ManageUser(db, body).reply.Ok?)
          && (r.reply.Ok? ==> r.reply.body == Done(ManageUser(db, body).reply.body))
          && (ManageUser(db, body).reply.HttpError? ==>
                r.reply == HttpError(ManageUser(db, body).reply.status, ManageUser(db, body).reply.message))
    ensures RfidsUnique(db.users) ==> RfidsUnique(r.db.users)
    ensures PhonesUnique(db.users) ==> PhonesUnique(r.db.users)
  {
    match Identify(req)
    case Caller(caller) =>
      if caller !in db.admins then Outcome(HttpError(403, "Admin access required"), db)
      else if req.httpMethod == Get then Outcome(Ok(Listed(ListUsers(db))), db)
      else if req.httpMethod == Post then
        var m := ManageUser(db, body);
        match m.reply
        case Ok(message) => Outcome(Ok(Done(message)), m.db)
        case HttpError(status, message) => Outcome(HttpError(status, message), m.db)
      else Outcome(HttpError(405, "Method not allowed"), db)
    case _ => Outcome(PreambleError(Identify(req), "Unauthorized"), db)
  }

  /** Body of `POST /api/register-user`. */
  datatype RegisterBody = RegisterBody(rfid: Option<string>, name: Option<string>, phone: Option<string>, email: Option<string>)

  /** Every reply of the registration endpoint has status 200. */
  datatype RegisterReply = Registered(email: Email) | NotRegistered(error: string)

  /** `users.findOne({ $or: [{ rfid }, { phone }, { email }] })` finds someone. */
  predicate Clashes(users: map<Email, User>, rfid: Rfid, phone: string, email: Email) {
    email in users || exists e :: e in users && (users[e].rfid == Some(rfid) || users[e].phone == Some(phone))
  }

  predicate RegistrationComplete(body: RegisterBody) {
    Present(body.rfid) && Present(body.name) && Present(body.phone) && Present(body.email)
  }

  /**
   * `POST /api/register-user`: unauthenticated; inserts one user record when
   * all four fields are given and none of rfid, phone or email is in use.
   */
  function RegisterUser(db: Db, httpMethod: Method, body: RegisterBody): (r: Outcome<RegisterReply>)
    ensures r.reply.Ok?
    ensures r.db.keyEvents == db.keyEvents && r.db.admins == db.admins && r.db.signupRequests == db.signupRequests
    ensures r.reply.body.NotRegistered? ==> r.db == db
    ensures r.reply.body.Registered? <==>
      httpMethod == Post && RegistrationComplete(body)
      && !Clashes(db.users, body.rfid.value, body.phone.value, body.email.value)
    ensures r.reply.body.Registered? ==>
      && body.email.value !in db.users
      && r.db.users == db.users[body.email.value := User(body.name.value, body.phone, body.rfid)]
      && |r.db.users| == |db.users| + 1
    ensures RfidsUnique(db.users) ==> RfidsUnique(r.db.users)
    ensures PhonesUnique(db.users) ==> PhonesUnique(r.db.users)
  {
    if httpMethod != Post then Outcome(Ok(NotRegistered("Method not allowed")), db)
    else if !RegistrationComplete(body) then Outcome(Ok(NotRegistered("Missing required fields")), db)
    else if Clashes(db.users, body.rfid.value, body.phone.value, body.email.value) then
      Outcome(Ok(NotRegistered("User with this RFID, phone, or email already exists")), db)
    else
      var email := body.email.value;
      Outcome(Ok(Registered(email)), db.(users := db.users[email := User(body.name.value, body.phone, body.rfid)]))
  }
}

=== FILE: http.dfy ===
/**
 * The request surface shared by the handlers: the HTTP method, the
 * `authorization` header, what its bearer token decodes to, and the reply.
 */
module Http {
  import opened Optional
  import opened KeyStore

  datatype Method = Get | Post | OtherMethod

  /**
   * What `JSON.parse(atob(token))` yields: either it throws, or an object
   * whose `email`, `name` and `picture` fields may be missing.
   */
  datatype Claims = Undecodable | Decoded(email: Option<string>, name: Option<string>, picture: Option<string>)

  /** A request; `claims` is what the token after the bearer prefix decodes to. */
  datatype Request = Request(httpMethod: Method, authorization: Option<string>, claims: Claims)

  /** A JSON body with status 200, or an error raised with `createError`. */
  datatype Reply<+T> = Ok(body: T) | HttpError(status: int, message: string)

  /** A handler's reply together with the state it leaves behind. */
  datatype Outcome<+T> = Outcome(reply: Reply<T>, db: Db)

  const BEARER_PREFIX := "Bearer "

  /** The header is present and starts with `"Bearer "`. */
  predicate IsBearer(header: Option<string>) {
    header.Some? && |header.value| >= |BEARER_PREFIX| && header.value[..|BEARER_PREFIX|] == BEARER_PREFIX
  }

  /** How far the bearer-token preamble common to the handlers gets. */
  datatype Identity = Unauthenticated | BadToken | MissingEmail | Caller(email: Email)

  /**
   * The preamble: no bearer header, a token that does not decode, a decoded
   * token without a (truthy) email, or the caller's email.
   */
  function Identify(req: Request): (id: Identity)
    ensures id.Unauthenticated? <==> !IsBearer(req.authorization)
    ensures id.BadToken? <==> IsBearer(req.authorization) && req.claims.Undecodable?
    ensures id.Caller? <==> IsBearer(req.authorization) && req.claims.Decoded? && Present(req.claims.email)
    ensures id.Caller? ==> Some(id.email) == req.claims.email && id.email != ""
  {
    if !IsBearer(req.authorization) then Unauthenticated
    else match req.claims
      case Undecodable => BadToken
      case Decoded(email, _, _) => if Present(email) then Caller(email.value) else MissingEmail
  }

  /** The error every handler that decodes the token raises for a preamble failure. */
  function PreambleError<T>(id: Identity, unauthorized: string): (r: Reply<T>)
    requires !id.Caller?
    ensures r.HttpError?
    ensures r.status == 401 <==> id.Unauthenticated?
    ensures r.status == 500 <==> id.BadToken?
    ensures r.status == 400 <==> id.MissingEmail?
  {
    match id
    case Unauthenticated => HttpError(401, unauthorized)
    case BadToken => HttpError(500, "Internal server error")
    case MissingEmail => HttpError(400, "Invalid token - no email found")
  }
}

=== FILE: optional.dfy ===
/** Optional values: a document field that may be absent, or a lookup that may miss. */
module Optional {

  datatype Option<+T> = None | Some(value: T) {

    /** The value, or `default` when there is none. */
    function GetOr(default: T): T {
      match this
      case Some(v) => v
      case None => default
    }
  }
}

=== FILE: reader.dfy ===
/**
 * The RFID reader's `checkRFID`: writes the card UID as upper-case hex into
 * a caller-supplied character buffer of `bufferSize` bytes, two digits per
 * UID byte, each written by `sprintf("%02X")`, which also stores a NUL after
 * the two digits.
 */
module Reader {
  import opened Optional

  type Byte = b: int | 0 <= b < 256

  const HEX_DIGITS := "0123456789ABCDEF"

  /** `size_t` on the ESP32 is 32 bits wide. */
  const SIZE_MODULUS: int := 0x1_0000_0000

  /** The two characters `sprintf("%02X", b)` writes before its terminator. */
  function HexByte(b: Byte): string {
    [HEX_DIGITS[b / 16], HEX_DIGITS[b % 16]]
  }

  /** The hex text of a UID: the digits of each byte in turn. */
  function HexOf(uid: seq<Byte>): (s: string)
    ensures |s| == 2 * |uid|
    ensures forall i :: 0 <= i < |uid| ==> s[2 * i] == HEX_DIGITS[uid[i] / 16] && s[2 * i + 1] == HEX_DIGITS[uid[i] % 16]
  {
    if uid == [] then [] else HexOf(uid[..|uid| - 1]) + HexByte(uid[|uid| - 1])
  }

  type Nibble = n: int | 0 <= n < 16

  /** The value of an upper-case hex digit. */
  function DigitValue(c: char): Option<Nibble> {
    if '0' <= c <= '9' then Some(c as int - '0' as int)
    else if 'A' <= c <= 'F' then Some(c as int - 'A' as int + 10)
    else None
  }

  function Combine(hi: Nibble, lo: Nibble): Byte {
    hi * 16 + lo
  }

  /** Reads hex text back into bytes: pairs of upper-case digits, high digit first. */
  function DecodeHex(s: string): Option<seq<Byte>>
    decreases |s|
  {
    if s == [] then Some([])
    else if |s| == 1 then None
    else
      var front := DecodeHex(s[..|s| - 2]);
      var hi := DigitValue(s[|s| - 2]);
      var lo := DigitValue(s[|s| - 1]);
      if front.Some? && hi.Some? && lo.Some? then Some(front.value + [Combine(hi.value, lo.value)]) else None
  }

  lemma DigitValueOfDigit(n: Nibble)
    ensures DigitValue(HEX_DIGITS[n]) == Some(n)
  {
  }

  /** The hex text of a non-empty UID: the text of all but the last byte, then the last byte's digits. */
  lemma HexOfSplit(uid: seq<Byte>)
    requires uid != []
    ensures var s := HexOf(uid);
      && s[..|s| - 2] == HexOf(uid[..|uid| - 1])
      && DigitValue(s[|s| - 2]) == Some(uid[|uid| - 1] / 16)
      && DigitValue(s[|s| - 1]) == Some(uid[|uid| - 1] % 16)
  {
    var b := uid[|uid| - 1];
    var s := HexOf(uid);
    assert s == HexOf(uid[..|uid| - 1]) + HexByte(b);
    DigitValueOfDigit(b / 16);
    DigitValueOfDigit(b % 16);
  }

  /** The hex text of a UID reads back as that UID. */
  lemma {:induction false} DecodeHexOfHex(uid: seq<Byte>)
    ensures DecodeHex(HexOf(uid)) == Some(uid)
    decreases |uid|
  {
    if uid != [] {
      var front, b := uid[..|uid| - 1], uid[|uid| - 1];
      HexOfSplit(uid);
      DecodeHexOfHex(front);
      assert Combine(b / 16, b % 16) == b;
      assert front + [b] == uid;
    }
  }

  /** `bufferSize` NUL characters, what `memset(uidBuffer, 0, bufferSize)` leaves. */
  function Zeros(n: nat): (z: string)
    ensures |z| == n && forall k :: 0 <= k < n ==> z[k] == '\0'
  {
    seq(n, _ => '\0')
  }

  /** Iterations of the loop as written, from `i` on: it runs while `i < uid.size && i*2 < limit`. */
  function LoopCount(i: nat, uidLength: nat, limit: nat): (n: nat)
    ensures i <= n && (i <= uidLength ==> n <= uidLength)
    ensures i < n ==> 2 * (n - 1) < limit
    ensures n < uidLength ==> 2 * n >= limit
    decreases uidLength - i
  {
    if i < uidLength && 2 * i < limit then LoopCount(i + 1, uidLength, limit) else i
  }

  /** The loop bound as written: `bufferSize - 1` in `size_t`, which wraps when `bufferSize` is 0. */
  function AsWrittenLimit(bufferSize: nat): nat
    requires bufferSize < SIZE_MODULUS
  {
    (bufferSize - 1) % SIZE_MODULUS
  }

  /**
   * How many bytes of the buffer the loop as written touches: iteration `i`
   * writes offsets `2i`, `2i+1` and, for the terminator, `2i+2`.
   */
  function AsWrittenExtent(uidLength: nat, bufferSize: nat): (extent: nat)
    requires bufferSize < SIZE_MODULUS
    ensures extent <= 2 * uidLength + 1
    ensures extent == 0 <==> uidLength == 0 || AsWrittenLimit(bufferSize) == 0
    ensures extent > 0 ==> extent % 2 == 1 && extent - 3 < 2 * AsWrittenLimit(bufferSize)
  {
    var n := LoopCount(0, uidLength, AsWrittenLimit(bufferSize));
    if n == 0 then 0 else 2 * n + 1
  }

  lemma {:induction false} LoopCountClosedForm(i: nat, uidLength: nat, limit: nat)
    requires i <= uidLength && i <= (limit + 1) / 2
    ensures LoopCount(i, uidLength, limit) == if uidLength < (limit + 1) / 2 then uidLength else (limit + 1) / 2
    decreases uidLength - i
  {
    if i < uidLength && 2 * i < limit {
      LoopCountClosedForm(i + 1, uidLength, limit);
    }
  }

  /**
   * The loop as written writes past the end of a non-empty buffer exactly
   * when the buffer size is even and the UID fills it: the terminator of the
   * last `sprintf` lands on `uidBuffer[bufferSize]`.
   */
  lemma AsWrittenOverrun(uidLength: nat, bufferSize: nat)
    requires 0 < bufferSize < SIZE_MODULUS
    ensures AsWrittenExtent(uidLength, bufferSize) > bufferSize <==> bufferSize % 2 == 0 && 2 * uidLength >= bufferSize
  {
    LoopCountClosedForm(0, uidLength, AsWrittenLimit(bufferSize));
  }

  /** A 4-byte UID, the common MIFARE size, in an 8-byte buffer: the loop as written touches 9 bytes. */
  lemma AsWrittenOverrunExample()
    ensures AsWrittenExtent(4, 8) == 9
  {
    LoopCountClosedForm(0, 4, 7);
  }

  /**
   * With a zero-size buffer `bufferSize - 1` wraps to the largest `size_t`,
   * so the loop as written encodes the whole UID into no room at all.
   */
  lemma AsWrittenZeroSizeOverrun(uidLength: nat)
    requires 0 < uidLength < SIZE_MODULUS / 2
    ensures AsWrittenExtent(uidLength, 0) == 2 * uidLength + 1
  {
    LoopCountClosedForm(0, uidLength, AsWrittenLimit(0));
  }

  /**
   * The number of UID bytes encoded when each iteration must leave room for
   * the two digits and the terminator: `2i + 2 < bufferSize`.
   */
  function EncodedBytes(uidLength: nat, bufferSize: nat): (k: nat)
    ensures k <= uidLength
    ensures bufferSize > 0 ==> 2 * k + 1 <= bufferSize
    ensures k < uidLength ==> 2 * k + 2 >= bufferSize
  {
    if bufferSize == 0 then 0
    else if uidLength < (bufferSize - 1) / 2 then uidLength else (bufferSize - 1) / 2
  }

  /**
   * Wherever the loop as written stays inside the buffer, the corrected
   * bound encodes the same number of bytes: the correction only changes
   * the runs that overrun.
   */
  lemma CorrectionAgreesInBounds(uidLength: nat, bufferSize: nat)
    requires 0 < bufferSize < SIZE_MODULUS
    requires AsWrittenExtent(uidLength, bufferSize) <= bufferSize
    ensures EncodedBytes(uidLength, bufferSize) == LoopCount(0, uidLength, AsWrittenLimit(bufferSize))
  {
    LoopCountClosedForm(0, uidLength, AsWrittenLimit(bufferSize));
    AsWrittenOverrun(uidLength, bufferSize);
  }

  /**
   * `checkRFID(uidBuffer, bufferSize)` with the bound corrected so that every
   * write stays inside the buffer. With no new card, or a failed read, it
   * reports false and leaves the buffer as it was; otherwise the buffer holds
   * the hex of as many leading UID bytes as fit with a terminator, then NULs.
   */
  method CheckRfid(cardRead: bool, uid: seq<Byte>, buffer: string) returns (ok: bool, result: string)
    ensures ok == cardRead
    ensures !cardRead ==> result == buffer
    ensures cardRead ==>
      var k := EncodedBytes(|uid|, |buffer|);
      result == HexOf(uid[..k]) + Zeros(|buffer| - 2 * k)
  {
    if !cardRead {
      return false, buffer;
    }
    var a := new char[|buffer|];
    var j := 0;
    while j < a.Length
      invariant 0 <= j <= a.Length
      invariant forall q :: 0 <= q < j ==> a[q] == '\0'
    {
      a[j] := '\0';
      j := j + 1;
    }
    var i := 0;
    while i < |uid| && 2 * i + 2 < a.Length
      invariant 0 <= i <= |uid|
      invariant a.Length > 0 ==> 2 * i + 1 <= a.Length
      invariant a.Length == 0 ==> i == 0
      invariant a[..2 * i] == HexOf(uid[..i])
      invariant forall q :: 2 * i <= q < a.Length ==> a[q] == '\0'
    {
      var digits := HexByte(uid[i]);
      a[2 * i] := digits[0];
      a[2 * i + 1] := digits[1];
      a[2 * i + 2] := '\0';
      assert uid[..i + 1][..i] == uid[..i];
      i := i + 1;
    }
    assert i == EncodedBytes(|uid|, |buffer|);
    assert a[..] == a[..2 * i] + a[2 * i..];
    return true, a[..];
  }
}

=== FILE: server.dfy ===
/**
 * The server as a whole: every state-changing handler, run one request at a
 * time. The user directory keeps rfids and phone numbers unique whatever
 * the requests; the log keeps alternating as long as the unguarded log
 * endpoint is not used; and with a clock that never runs backwards it stays
 * chronological.
 */
module Server {
  import opened Optional
  import opened KeyStore
  import opened Http
  import opened Custody
  import opened Directory
  import opened Auth

  /** One request to a handler that may change the database. */
  datatype Call =
    | TakeRequest(req: Request, now: nat)
    | ReturnRequest(req: Request, now: nat)
    | ResetRequest(req: Request, reset: ResetBody, now: nat)
    | LogRequest(httpMethod: Method, rfid: Option<string>, eventType: Option<string>, now: nat)
    | AssignRequest(req: Request, assign: RfidBody, now: nat)
    | AdminUsersRequest(req: Request, manage: ManageBody, now: nat)
    | RegisterRequest(httpMethod: Method, register: RegisterBody, now: nat)
    | SignupRequestCall(req: Request, now: nat)

  ghost function Step(db: Db, call: Call): Db {
    match call
    case TakeRequest(req, now) => TakeKey(db, req, now).db
    case ReturnRequest(req, now) => ReturnKey(db, req, now).db
    case ResetRequest(req, reset, now) => ResetKey(db, req, reset, now).db
    case LogRequest(m, rfid, eventType, now) => LogKeyEvent(db, m, rfid, eventType, now).db
    case AssignRequest(req, assign, _) => AssignRfid(db, req, assign).db
    case AdminUsersRequest(req, manage, _) => AdminUsers(db, req, manage).db
    case RegisterRequest(m, register, _) => RegisterUser(db, m, register).db
    case SignupRequestCall(req, now) => Signup(db, req, now).db
  }

  ghost function Run(db: Db, calls: seq<Call>): Db
    decreases |calls|
  {
    if calls == [] then db else Run(Step(db, calls[0]), calls[1..])
  }

  /** No request of any kind lets two users share an rfid or a phone number. */
  lemma {:induction false} RunKeepsDirectoryUnique(db: Db, calls: seq<Call>)
    requires RfidsUnique(db.users) && PhonesUnique(db.users)
    ensures RfidsUnique(Run(db, calls).users) && PhonesUnique(Run(db, calls).users)
    decreases |calls|
  {
    if calls != [] {
      RunKeepsDirectoryUnique(Step(db, calls[0]), calls[1..]);
    }
  }

  predicate Guarded(call: Call) {
    !call.LogRequest?
  }

  /** Without the raw log endpoint, takes and returns keep alternating whatever else is requested. */
  lemma {:induction false} GuardedRunKeepsAlternation(db: Db, calls: seq<Call>)
    requires Alternates(db.keyEvents)
    requires forall i :: 0 <= i < |calls| ==> Guarded(calls[i])
    ensures Alternates(Run(db, calls).keyEvents)
    decreases |calls|
  {
    if calls != [] {
      assert Guarded(calls[0]);
      GuardedRunKeepsAlternation(Step(db, calls[0]), calls[1..]);
    }
  }

  /** The clock reading a request is handled at. */
  function Clock(call: Call): nat {
    call.now
  }

  /** Requests are handled at non-decreasing clock readings, none earlier than the log's latest event. */
  predicate ClockNeverRunsBack(db: Db, calls: seq<Call>) {
    && (forall i, j :: 0 <= i < j < |calls| ==> Clock(calls[i]) <= Clock(calls[j]))
    && (calls != [] ==> NotBefore(db.keyEvents, Clock(calls[0])))
  }

  /** With such a clock the log stays chronological, so its last element is always a newest one. */
  lemma {:induction false} RunKeepsChronological(db: Db, calls: seq<Call>)
    requires Chronological(db.keyEvents) && ClockNeverRunsBack(db, calls)
    ensures Chronological(Run(db, calls).keyEvents)
    decreases |calls|
  {
    if calls != [] {
      var next := Step(db, calls[0]);
      assert Chronological(next.keyEvents);
      assert next.keyEvents == db.keyEvents || Last(next.keyEvents).timestamp == Clock(calls[0]);
      if |calls| > 1 {
        assert Clock(calls[0]) <= Clock(calls[1]);
      }
      RunKeepsChronological(next, calls[1..]);
    }
  }
}

=== FILE: status.dfy ===
/**
 * The two read-only status endpoints, for signed-in users and for the
 * RFID device, and a reference definition of custody status obtained by
 * replaying the whole log from the empty state.
 */
module KeyStatus {
  import opened Optional
  import opened KeyStore
  import opened Http

  /** The holder details the web status reports. */
  datatype Holder = Holder(name: string, phone: Option<string>)

  /** Body of `GET /api/key-status`; an empty log has no timestamp field. */
  datatype StatusReply = StatusReply(taken: bool, holder: Option<Holder>, timestamp: Option<nat>)

  /**
   * `GET /api/key-status`: any non-empty bearer token is accepted, and the
   * reply is read off the latest event. It returns no new state: the read
   * cannot change the database.
   */
  ghost function GetKeyStatus(db: Db, authorization: Option<string>): (r: Reply<StatusReply>)
    ensures r.HttpError? <==> !IsBearer(authorization) || authorization.value == BEARER_PREFIX
    ensures r.HttpError? ==> r.status == 401
    ensures r.Ok? ==> (r.body.taken <==> IsTaken(db.keyEvents))
    ensures r.Ok? && db.keyEvents == [] ==> r.body == StatusReply(false, None, None)
    ensures r.Ok? && db.keyEvents != [] ==> r.body.timestamp == Some(Last(db.keyEvents).timestamp)
    ensures r.Ok? ==>
      (r.body.holder.Some? <==>
         IsTaken(db.keyEvents) && Last(db.keyEvents).rfid != "" && exists e :: HoldsRfid(db.users, e, Last(db.keyEvents).rfid))
    ensures r.Ok? && r.body.holder.Some? ==>
      exists e :: HoldsRfid(db.users, e, Last(db.keyEvents).rfid) && r.body.holder.value == Holder(db.users[e].name, db.users[e].phone)
  {
    if !IsBearer(authorization) then HttpError(401, "Authentication required")
    else
      var token := authorization.value[|BEARER_PREFIX|..];
      if token == "" then HttpError(401, "Invalid authentication token")
      else if db.keyEvents == [] then Ok(StatusReply(false, None, None))
      else
        var latest := Last(db.keyEvents);
        var holder :=
          if latest.rfid != "" && latest.eventType == Take then
            match HolderOf(db.users, latest.rfid)
            case Some(e) => Some(Holder(db.users[e].name, db.users[e].phone))
            case None => None
          else None;
        Ok(StatusReply(latest.eventType == Take, holder, Some(latest.timestamp)))
  }

  /** With unique rfids the reported holder is exactly the user holding the recorded tag. */
  lemma StatusNamesTheHolder(db: Db, authorization: Option<string>, e: Email)
    requires GetKeyStatus(db, authorization).Ok? && IsTaken(db.keyEvents)
    requires RfidsUnique(db.users) && HoldsRfid(db.users, e, Last(db.keyEvents).rfid) && Last(db.keyEvents).rfid != ""
    ensures GetKeyStatus(db, authorization).body.holder == Some(Holder(db.users[e].name, db.users[e].phone))
  {
    HolderIsUnique(db.users, e, Last(db.keyEvents).rfid);
  }

  /** The reply depends on the log only through its latest event. */
  lemma StatusDependsOnlyOnLatest(db1: Db, db2: Db, authorization: Option<string>)
    requires db1.users == db2.users && db1.keyEvents != [] && db2.keyEvents != []
    requires Last(db1.keyEvents) == Last(db2.keyEvents)
    ensures GetKeyStatus(db1, authorization) == GetKeyStatus(db2, authorization)
  {
  }

  const DEVICE_ID := "esp32-matik-registration"

  /** Body of `GET /api/key-status-for-esp`; `timestamp` is the server's clock. */
  datatype EspStatus = EspStatus(keyTaken: bool, currentHolder: Option<Rfid>, lastEvent: Option<KeyEvent>, timestamp: nat)

  /**
   * `GET /api/key-status-for-esp`: the `x-api-key` header must equal the
   * configured device key (an unset configuration refuses every key), checked
   * before the `x-device-id` header.
   */
  function GetKeyStatusForEsp(log: seq<KeyEvent>, apiKey: Option<string>, deviceId: Option<string>,
                              configuredKey: Option<string>, now: nat): (r: Reply<EspStatus>)
    ensures r == HttpError(401, "Invalid device API key") <==> !Present(apiKey) || apiKey != configuredKey
    ensures r == HttpError(403, "Unknown device") <==> Present(apiKey) && apiKey == configuredKey && deviceId != Some(DEVICE_ID)
    ensures r.Ok? <==> Present(apiKey) && apiKey == configuredKey && deviceId == Some(DEVICE_ID)
    ensures r.Ok? ==>
      && (r.body.keyTaken <==> IsTaken(log))
      && (r.body.currentHolder.Some? <==> r.body.keyTaken)
      && (r.body.currentHolder.Some? ==> r.body.currentHolder.value == Last(log).rfid)
      && (r.body.lastEvent.None? <==> log == [])
      && (r.body.lastEvent.Some? ==> r.body.lastEvent.value == Last(log))
      && r.body.timestamp == now
  {
    if !Present(apiKey) || apiKey != configuredKey then HttpError(401, "Invalid device API key")
    else if !Present(deviceId) || deviceId.value != DEVICE_ID then HttpError(403, "Unknown device")
    else if log == [] then Ok(EspStatus(false, None, None, now))
    else
      var latest := Last(log);
      var keyTaken := latest.eventType == Take;
      Ok(EspStatus(keyTaken, if keyTaken then Some(latest.rfid) else None, Some(latest), now))
  }

  /** Custody as the log defines it: available, or taken under a tag. */
  datatype CustodyState = Available | TakenBy(tag: Rfid)

  function Apply(s: CustodyState, e: KeyEvent): CustodyState {
    match e.eventType
    case Take => TakenBy(e.rfid)
    case Return => Available
  }

  /** The custody reached by applying every event of the log in order, starting from `s`. */
  function Replay(s: CustodyState, log: seq<KeyEvent>): CustodyState
    decreases |log|
  {
    if log == [] then s else Replay(Apply(s, log[0]), log[1..])
  }

  /** Replaying a non-empty log ends in the state its last event sets. */
  lemma {:induction false} ReplayEndsWithLastEvent(s: CustodyState, log: seq<KeyEvent>)
    requires log != []
    ensures Replay(s, log) == Apply(s, Last(log))
    decreases |log|
  {
    if |log| > 1 {
      ReplayEndsWithLastEvent(Apply(s, log[0]), log[1..]);
      assert Last(log[1..]) == Last(log);
    }
  }

  /** Replaying the whole log from empty gives the status both endpoints report. */
  lemma StatusMatchesReplay(db: Db, authorization: Option<string>, apiKey: Option<string>, deviceId: Option<string>,
                            configuredKey: Option<string>, now: nat)
    ensures GetKeyStatus(db, authorization).Ok? ==>
      (GetKeyStatus(db, authorization).body.taken <==> Replay(Available, db.keyEvents).TakenBy?)
    ensures GetKeyStatusForEsp(db.keyEvents, apiKey, deviceId, configuredKey, now).Ok? ==>
      GetKeyStatusForEsp(db.keyEvents, apiKey, deviceId, configuredKey, now).body.currentHolder
        == (match Replay(Available, db.keyEvents) case TakenBy(t) => Some(t) case Available => None)
  {
    if db.keyEvents != [] {
      ReplayEndsWithLastEvent(Available, db.keyEvents);
    }
  }
}

=== FILE: store.dfy ===
/**
 * The state the server handlers share, as four collections: the append-only
 * `keyEvents` log (in insertion order, so "latest" is the last element), the
 * `users` collection keyed by email, the set of `admins` emails and the
 * `signupRequests` collection keyed by email.
 */
module KeyStore {
  import opened Optional

  type Email = string
  type Rfid = string

  /** JavaScript truthiness of an optional string field: undefined and "" are both falsy. */
  predicate Present(s: Option<string>) {
    s.Some? && s.value != ""
  }

  datatype EventType = Take | Return

  /**
   * One document of the `keyEvents` collection. Admin resets fill in the three
   * audit fields; every other writer leaves them absent.
   */
  datatype KeyEvent = KeyEvent(
    rfid: Rfid,
    eventType: EventType,
    timestamp: nat,
    adminEmail: Option<Email>,
    reason: Option<string>,
    originalRfid: Option<Rfid>)

  /** An event as the take, return and log handlers write it. */
  function PlainEvent(rfid: Rfid, eventType: EventType, now: nat): KeyEvent {
    KeyEvent(rfid, eventType, now, None, None, None)
  }

  /** A `users` document; `phone` and `rfid` are absent until someone sets them. */
  datatype User = User(name: string, phone: Option<string>, rfid: Option<Rfid>)

  datatype RequestStatus = Pending | Approved | Rejected

  datatype SignupRequest = SignupRequest(name: string, picture: string, requestedAt: nat, status: RequestStatus)

  datatype Db = Db(
    keyEvents: seq<KeyEvent>,
    users: map<Email, User>,
    admins: set<Email>,
    signupRequests: map<Email, SignupRequest>)

  /** The last event of the log, if any. */
  function Last(log: seq<KeyEvent>): KeyEvent
    requires log != []
  {
    log[|log| - 1]
  }

  /** The key is out exactly when the latest event is a take. */
  predicate IsTaken(log: seq<KeyEvent>) {
    log != [] && Last(log).eventType == Take
  }

  /**
   * Takes at even positions and returns at odd ones: the log starts with a
   * take and never holds two events of the same kind in a row.
   */
  predicate Alternates(log: seq<KeyEvent>) {
    forall i :: 0 <= i < |log| ==> log[i].eventType == (if i % 2 == 0 then Take else Return)
  }

  /** Timestamps never decrease along the log. */
  predicate Chronological(log: seq<KeyEvent>) {
    forall i, j :: 0 <= i < j < |log| ==> log[i].timestamp <= log[j].timestamp
  }

  /** `now` is no earlier than the latest event, as an insertion-time clock guarantees. */
  predicate NotBefore(log: seq<KeyEvent>, now: nat) {
    log == [] || Last(log).timestamp <= now
  }

  /**
   * The handlers read the latest event by sorting on timestamp; in a
   * chronological log the last element is a newest one.
   */
  lemma LastIsNewest(log: seq<KeyEvent>, i: nat)
    requires Chronological(log) && i < |log|
    ensures log[i].timestamp <= Last(log).timestamp
  {
  }

  /** Appending an event stamped no earlier than the latest keeps the log chronological. */
  lemma AppendKeepsChronological(log: seq<KeyEvent>, e: KeyEvent)
    ensures Chronological(log) && NotBefore(log, e.timestamp) ==> Chronological(log + [e])
  {
  }

  /** Appending the kind that is due keeps the log alternating. */
  lemma AppendKeepsAlternation(log: seq<KeyEvent>, e: KeyEvent)
    requires e.eventType == (if IsTaken(log) then Return else Take)
    ensures Alternates(log) ==> Alternates(log + [e])
  {
    if Alternates(log) && log != [] {
      var n := |log| - 1;
      assert log[n].eventType == (if n % 2 == 0 then Take else Return);
    }
  }

  /** Appending the kind that is not due ends the alternation, whatever follows. */
  lemma AppendOutOfTurnBreaksAlternation(log: seq<KeyEvent>, e: KeyEvent)
    requires e.eventType != (if IsTaken(log) then Return else Take)
    ensures !Alternates(log + [e])
  {
    var n := |log|;
    var extended := log + [e];
    assert extended[n] == e;
    if n > 0 {
      assert extended[n - 1] == Last(log);
    }
  }

  /** In an alternating log the key is out exactly when the log has odd length. */
  lemma TakenIffOddLength(log: seq<KeyEvent>)
    requires Alternates(log)
    ensures IsTaken(log) <==> |log| % 2 == 1
  {
    if log != [] {
      var n := |log| - 1;
      assert log[n].eventType == (if n % 2 == 0 then Take else Return);
    }
  }

  predicate HoldsRfid(users: map<Email, User>, e: Email, r: Rfid) {
    e in users && users[e].rfid == Some(r)
  }

  /** `users.findOne({ rfid: r })`: some user holding `r`, if any does. */
  ghost function HolderOf(users: map<Email, User>, r: Rfid): (h: Option<Email>)
    ensures h.Some? ==> HoldsRfid(users, h.value, r)
    ensures h.None? ==> forall e :: e in users ==> users[e].rfid != Some(r)
  {
    if exists e :: HoldsRfid(users, e, r) then
      var e :| HoldsRfid(users, e, r); Some(e)
    else
      assert forall e :: e in users ==> users[e].rfid != Some(r) by {
        forall e | e in users ensures users[e].rfid != Some(r) {
          assert !HoldsRfid(users, e, r);
        }
      }
      None
  }

  /** The display name of the holder of `r`, or `fallback` when no user holds it. */
  ghost function HolderName(users: map<Email, User>, r: Rfid, fallback: string): string {
    match HolderOf(users, r)
    case Some(e) => users[e].name
    case None => fallback
  }

  /** No two users hold the same rfid. */
  predicate RfidsUnique(users: map<Email, User>) {
    forall e1, e2 :: e1 in users && e2 in users && e1 != e2 && users[e1].rfid.Some? ==> users[e1].rfid != users[e2].rfid
  }

  /** No two users have the same phone number; the empty phone of an admin's record is no number. */
  predicate PhonesUnique(users: map<Email, User>) {
    forall e1, e2 :: e1 in users && e2 in users && e1 != e2 && Present(users[e1].phone) ==> users[e1].phone != users[e2].phone
  }

  /** With unique rfids the holder lookup is determined: it finds the one user holding the tag. */
  lemma HolderIsUnique(users: map<Email, User>, e: Email, r: Rfid)
    requires RfidsUnique(users) && HoldsRfid(users, e, r)
    ensures HolderOf(users, r) == Some(e)
    ensures forall fallback :: HolderName(users, r, fallback) == users[e].name
  {
    var h := HolderOf(users, r);
    assert h.Some?;
    assert HoldsRfid(users, h.value, r);
  }
}

=== FILE: text.dfy ===
/**
 * The two JavaScript string operations the directory handlers rely on:
 * `String.prototype.trim` and `email.split('@')[0]`.
 */
module JsText {

  /** ECMAScript WhiteSpace and LineTerminator code points, the characters `trim` strips. */
  predicate IsJsWhitespace(c: char) {
    || c == '\t' || c == '\n' || c == '\U{000B}' || c == '\U{000C}' || c == '\r' || c == ' '
    || c == '\U{00A0}' || c == '\U{1680}' || ('\U{2000}' <= c <= '\U{200A}')
    || c == '\U{2028}' || c == '\U{2029}' || c == '\U{202F}' || c == '\U{205F}'
    || c == '\U{3000}' || c == '\U{FEFF}'
  }

  predicate AllWhitespace(s: string) {
    forall k :: 0 <= k < |s| ==> IsJsWhitespace(s[k])
  }

  /** The number of whitespace characters `s` starts with. */
  function LeadingWhitespace(s: string): (n: nat)
    ensures n <= |s|
    ensures AllWhitespace(s[..n])
    ensures n < |s| ==> !IsJsWhitespace(s[n])
  {
    if s != [] && IsJsWhitespace(s[0]) then
      var n := 1 + LeadingWhitespace(s[1..]);
      assert s[..n] == [s[0]] + s[1..][..n - 1];
      n
    else 0
  }

  /** The length of `s` without the whitespace it ends with. */
  function TrailingStart(s: string): (m: nat)
    ensures m <= |s|
    ensures AllWhitespace(s[m..])
    ensures m > 0 ==> !IsJsWhitespace(s[m - 1])
  {
    if s != [] && IsJsWhitespace(s[|s| - 1]) then
      var m := TrailingStart(s[..|s| - 1]);
      assert s[m..] == s[..|s| - 1][m..] + [s[|s| - 1]];
      m
    else |s|
  }

  /**
   * `s.trim()`: `s` with its leading and trailing whitespace removed. The
   * result is empty exactly when `s` is all whitespace, and otherwise it
   * neither starts nor ends with whitespace.
   */
  function Trim(s: string): (t: string)
    ensures exists a, b :: s == a + t + b && AllWhitespace(a) && AllWhitespace(b)
    ensures t == [] <==> AllWhitespace(s)
    ensures t != [] ==> !IsJsWhitespace(t[0]) && !IsJsWhitespace(t[|t| - 1])
  {
    var n := LeadingWhitespace(s);
    if n == |s| then
      assert s[..n] == s;
      var none: string := [];
      assert s == s + none + none && AllWhitespace(none);
      []
    else
      var m := TrailingStart(s);
      assert n < m;
      assert s == s[..n] + s[n..m] + s[m..];
      assert !IsJsWhitespace(s[n]);
      s[n..m]
  }

  /** Trimming twice is trimming once. */
  lemma TrimIdempotent(s: string)
    ensures Trim(Trim(s)) == Trim(s)
  {
    var t := Trim(s);
    if t != [] {
      assert LeadingWhitespace(t) == 0;
      assert TrailingStart(t) == |t|;
    }
  }

  /** `email.split('@')[0]`: everything before the first '@', or the whole string when there is none. */
  function EmailPrefix(email: string): (p: string)
    ensures '@' !in p
    ensures p <= email
    ensures |p| < |email| ==> email[|p|] == '@'
  {
    if email == [] || email[0] == '@' then [] else [email[0]] + EmailPrefix(email[1..])
  }
}
